=== FILE: README.md ===
# Fruit's semistatic map and semistatic graph, in Dafny

This project models the two data structures under Fruit's dependency-injection container.

**`SemistaticMap<Key, Value>`** is a hash map that is built once and can later be extended by a few keys.
- The hash is multiplicative: multiply by `a` with wrap-around at the word size, then shift right by `shift`.
- A lookup table gives each bucket a half-open range in an entry store.
- `find` scans the key's range and returns null when the key is absent. `at` is the unchecked variant.
- Extension appends new entries for new keys. It leaves the old entries in place, and the old map still sees them.

**`SemistaticGraph<NodeId, Node>`** is a directed graph that uses such a map to send external node ids to dense indices into a `nodes` vector.
- Edges are stored as indices, one contiguous run per node, in an edge store whose first element is never used.
- A node's `edgesBegin` word is one of:
  - 0 for a terminal node;
  - 1 for a node known only as the target of some edge (a placeholder);
  - otherwise, the address of the first element of its run.

Files (one module each):

| file | what it holds |
|---|---|
| `wrappers.dfy` | the `Option` type used for absent results (`find`'s null pointer) |
| `pairs.dfy` | association lists: key sets, distinct keys, lookup, and lemmas on appending |
| `hashing.dfy` | 64-bit word arithmetic: the hash function, `pickNumBits` (as intended, and as written with a 32-bit shift) |
| `semistatic_map.dfy` | the map: representation invariant, `find`/`at`, `insert`, both constructors |
| `semistatic_graph.dfy` | the graph: invariant, lookups, node and edge iterators, `changeNodeToTerminal`, `checkFullyConstructed`, both constructors (pass 1 allocates indices, pass 2 stores nodes and edges) |
| `slot_encoding.dfy` | the `edgesBegin` word: encoding and decoding of the three-way tag |
| `graph_scenario.dfy` | a dependency declared late: build with a dangling edge, then extend |

Representation choices:
- Pointers into vectors are indices into sequences.
  - The map's `lookup_table` holds `Range(lo, hi)` into one append-only `entries` sequence.
  - The graph's edge cursor is a position in `edgesStorage`.
  - A node iterator is an index into `nodes`, and `end()` is `|nodes|`.
- A shallow copy that shares storage with its source is a new value whose store has the old store as a prefix (`SemistaticMap.Shares`).
- `std::hash` is a function `keyHash: K -> Word` carried by the map.
- The hash multiplier `a` and the default value of a placeholder node are parameters of the constructors.
- `Word` is a natural number below 2^64, the width of `std::uintptr_t` on a 64-bit platform. Wrap-around is explicit: `Hashing.WrapMul` reduces modulo 2^64.
- The three-way tag is the datatype `Slot = Terminal | Placeholder | Edges(offset)`. The `SlotEncoding` module relates it to the `edgesBegin` word.

## Model

| member | source | states |
|---|---|---|
| Hashing.Hash | include/fruit/impl/data_structures/semistatic_map.h:48-55 | with `shift < 64`, the hash of any word is below 2^(64 - shift), so with `shift == 64 - numBits` it always indexes a table of 2^numBits buckets |
| Hashing.ShiftBound | include/fruit/impl/data_structures/semistatic_map.h:52-54 | a word shifted right by `shift` is below 2^(64 - shift) |
| Hashing.PickNumBits | include/fruit/impl/data_structures/semistatic_map.h:57-63 | the result b is at least 1, 2^b covers n, and b is 1 or 2^(b-1) < n: the least such width |
| Hashing.LeastWidthUnique | include/fruit/impl/data_structures/semistatic_map.h:57-63 | at most one width satisfies that characterisation, so PickNumBits is exactly the least width covering n |
| Hashing.PickNumBitsFitsWord | include/fruit/impl/data_structures/semistatic_map.h:45-46 | for a count up to 2^64 the chosen width is at most 64, so `shift = 64 - b` is a valid shift that fits `NumBits` |
| Hashing.PickNumBitsAsWritten | include/fruit/impl/data_structures/semistatic_map.h:57-63 | the loop as written, with undefined behaviour as None: it is None exactly when n > 2^31; otherwise its result b is below 32, 2^b covers n, and b is 1 or 2^(b-1) < n |
| Hashing.PickNumBitsAsWrittenAgrees | include/fruit/impl/data_structures/semistatic_map.h:57-63 | the loop as written (with `1U << result`) returns the intended width whenever n <= 2^31 |
| Hashing.PickNumBitsAsWrittenUndefined | include/fruit/impl/data_structures/semistatic_map.h:57-63 | for 2^31 < n <= 2^64 the loop as written reaches `1U << 32`, which is undefined, although the intended width exists and is at most 64 |
| SemistaticMap.BucketOf | include/fruit/impl/data_structures/semistatic_map.h:72-74 | the private `hash(key)`: std::hash followed by the multiplicative hash, a bucket index below 2^(64 - shift) |
| SemistaticMap.KeyInOwnBucket | include/fruit/impl/data_structures/semistatic_map.h:66-69 | in a valid map a key's bucket indexes the lookup table, and the key is stored exactly when it appears in the range of its own bucket |
| SemistaticMap.Find | include/fruit/impl/data_structures/semistatic_map.h:107-109 | find is None (null) exactly when the key is not stored; otherwise the result is stored with the key |
| SemistaticMap.FindIsAssoc | include/fruit/impl/data_structures/semistatic_map.h:66-69 | find looks only at the key's own bucket: its result is the association-list lookup of the key in that bucket's range |
| SemistaticMap.At | include/fruit/impl/data_structures/semistatic_map.h:103-105 | at requires the key to be stored and then returns the value find returns |
| SemistaticMap.Insert | include/fruit/impl/data_structures/semistatic_map.h:76-80 | for absent keys, distinct among themselves, that all hash to h: the map stays valid and shares the old storage; bucket h's range becomes its old entries followed by the new ones; every other bucket is untouched; each new key finds its value; every other key's lookup is unchanged |
| SemistaticMap.InsertGroups | include/fruit/impl/data_structures/semistatic_map.h:76-80 | inserting a batch of absent distinct keys bucket by bucket keeps the map valid and sharing, maps each new key to its value and leaves every other lookup unchanged |
| SemistaticMap.Select | include/fruit/impl/data_structures/semistatic_map.h:76-80 | the pairs of a batch that hash (or do not hash) to h: exactly those pairs, with keys still distinct |
| SemistaticMap.Build | include/fruit/impl/data_structures/semistatic_map.h:86-88 | from pairs with distinct keys: a valid map of 2^pickNumBits(n) buckets in which every input key finds its paired value and no other key is found |
| SemistaticMap.BuildIsAssoc | include/fruit/impl/data_structures/semistatic_map.h:86-88 | every lookup in the built map equals the lookup in the input list of pairs |
| SemistaticMap.Extend | include/fruit/impl/data_structures/semistatic_map.h:90-95 | for distinct new keys absent from the map: the result is valid and shares the old storage (the old entries stay a prefix, unchanged); old keys keep their values; new keys find their new values; other keys stay absent |
| SemistaticMap.ExtendIsAssoc | include/fruit/impl/data_structures/semistatic_map.h:90-95 | every lookup in the extension is the old map's for old keys and the new list's for the others |
| SemistaticMap.SharesTransitive | include/fruit/impl/data_structures/semistatic_map.h:90-92 | sharing storage is transitive along chains of extensions |
| SemistaticGraph.Less | include/fruit/impl/data_structures/semistatic_graph.h:37-39 | `operator<` on internal node ids compares their indices; a plain comparison, whose order properties LessIsStrictTotalOrder states |
| SemistaticGraph.LessIsStrictTotalOrder | include/fruit/impl/data_structures/semistatic_graph.h:33-39 | `<` on internal node ids is a strict total order whose equivalence is `==` |
| SemistaticGraph.Find | include/fruit/impl/data_structures/semistatic_graph.h:195-198 | find is end() (`\|nodes\|`) exactly when the id is unknown, and otherwise the id's node index |
| SemistaticGraph.At | include/fruit/impl/data_structures/semistatic_graph.h:191-193 | at requires a known id and returns a valid node index equal to find's |
| SemistaticGraph.GetNode | include/fruit/impl/data_structures/semistatic_graph.h:104-104 | `getNode()` read as a value: a plain accessor; RecordReadsBack states that it returns a stored record's value, and SetNodeGetNode relates it to writes |
| SemistaticGraph.IsTerminal | include/fruit/impl/data_structures/semistatic_graph.h:106-106 | `isTerminal()`: a plain accessor; RecordReadsBack states that it returns a stored record's terminal flag, and SetTerminal makes it true |
| SemistaticGraph.SetNode | include/fruit/impl/data_structures/semistatic_graph.h:104-104 | an assignment through getNode()'s reference changes only that node's value: its slot, the other nodes, the index map and the edge store are kept, and every record of another node still reads back |
| SemistaticGraph.SetNodeGetNode | include/fruit/impl/data_structures/semistatic_graph.h:104-104 | writing back the value getNode() reads leaves the graph as it was |
| SemistaticGraph.SetTerminal | include/fruit/impl/data_structures/semistatic_graph.h:108-109 | the node becomes terminal and keeps its value; other nodes, the index map and the edge store are unchanged; the graph stays valid |
| SemistaticGraph.SetTerminalIdempotent | include/fruit/impl/data_structures/semistatic_graph.h:108-109 | setting a node terminal twice is the same as once |
| SemistaticGraph.ChangeNodeToTerminal | include/fruit/impl/data_structures/semistatic_graph.h:200-201 | for a known id: its node becomes terminal (hence declared) with its value kept; every other known id's node is unchanged; the number of nodes and the edge store are unchanged, so every other stored record still reads back; the graph stays valid |
| SemistaticGraph.ChangeNodeToTerminalIdempotent | include/fruit/impl/data_structures/semistatic_graph.h:200-201 | changing a node to terminal twice is the same as once |
| SemistaticGraph.NeighborsBegin | include/fruit/impl/data_structures/semistatic_graph.h:81-84 | the cursor of a node with a run starts at position at least 1, never at the unused first element of the store |
| SemistaticGraph.Next | include/fruit/impl/data_structures/semistatic_graph.h:154-154 | `operator++` on an edge cursor, one element on; a plain step, whose i-fold repetition Advance states |
| SemistaticGraph.Advance | include/fruit/impl/data_structures/semistatic_graph.h:154-154 | i applications of `operator++` move the cursor i elements on |
| SemistaticGraph.Target | include/fruit/impl/data_structures/semistatic_graph.h:152-152 | the node a cursor's edge points to is a valid node index |
| SemistaticGraph.TargetAt | include/fruit/impl/data_structures/semistatic_graph.h:157-157 | `getNodeIterator(i, graph)`: the node the i-th edge from a cursor points to is a valid node index |
| SemistaticGraph.TargetAtIsAdvanceThenTarget | include/fruit/impl/data_structures/semistatic_graph.h:156-157 | `getNodeIterator(i, graph)` equals i times `operator++` followed by `getNodeIterator(graph)` |
| SemistaticGraph.CheckFullyConstructed | include/fruit/impl/data_structures/semistatic_graph.h:203-205 | the check passes exactly when every known id, edge targets included, is declared (no placeholder node remains) |
| SemistaticGraph.GetOrAllocate | include/fruit/impl/data_structures/semistatic_graph.h:86-86 | a known id keeps its index and nothing is allocated; an unknown id gets the first unused index, which is then allocated; answers for other ids are unchanged |
| SemistaticGraph.AllocAll | include/fruit/impl/data_structures/semistatic_graph.h:86-86 | running getOrAllocateInternalNodeId over a list keeps earlier answers and makes exactly the listed ids known besides |
| SemistaticGraph.ResolveInjective | include/fruit/impl/data_structures/semistatic_graph.h:60-62 | indices handed out are below the first unused index, and distinct ids get distinct indices |
| SemistaticGraph.GrownValid | include/fruit/impl/data_structures/semistatic_graph.h:60-84 | after pass 1 the index map sends exactly the known ids one-to-one onto the node indices, with a placeholder node for each new id, and every edge is a node index |
| SemistaticGraph.Fill | include/fruit/impl/data_structures/semistatic_graph.h:163-172 | pass 2 keeps the graph valid, the index map and the number of nodes |
| SemistaticGraph.FillFacts | include/fruit/impl/data_structures/semistatic_graph.h:163-172 | after pass 2, nodes without a record are unchanged, declared nodes stop being placeholders and the edge store only grows; with one record per id each record's value, terminal flag and ordered edges are stored |
| SemistaticGraph.FillOne | include/fruit/impl/data_structures/semistatic_graph.h:163-167 | storing one record gives its node the record's value and either the terminal tag or a fresh run of its edge targets' indices, touching no other node |
| SemistaticGraph.AllocRecords | include/fruit/impl/data_structures/semistatic_graph.h:86-86 | getOrAllocateInternalNodeId over every id the records mention: the ids then known are exactly the graph's and the mentioned ones, with no more new ids than mentions |
| SemistaticGraph.PassOne | include/fruit/impl/data_structures/semistatic_graph.h:177-183 | an index map built from that allocation, with one placeholder node per new id, is a valid graph that extends the old one's index without moving its ids or nodes |
| SemistaticGraph.BuildIndex | include/fruit/impl/data_structures/semistatic_graph.h:163-172 | pass 1 of the constructor from records: a valid graph whose known ids are exactly the ids the records mention, all placeholders, with an edge store holding only its unused first element |
| SemistaticGraph.Build | include/fruit/impl/data_structures/semistatic_graph.h:163-172 | the constructed graph is valid; the known ids are exactly those the records mention; the declared ids are exactly those with a record; with one record per id every record reads back |
| SemistaticGraph.BuildCheck | include/fruit/impl/data_structures/semistatic_graph.h:203-205 | on a freshly built graph checkFullyConstructed passes exactly when every mentioned id has a record |
| SemistaticGraph.ExtendIndex | include/fruit/impl/data_structures/semistatic_graph.h:177-183 | pass 1 of the extension: x's ids keep their indices and nodes, new ids get the next indices as placeholders, and the edge store is x's |
| SemistaticGraph.Extend | include/fruit/impl/data_structures/semistatic_graph.h:177-183 | for records whose ids x has not declared: the result is valid; it knows x's ids with the same indices plus the mentioned ids; x's declared nodes keep their data and edges; exactly x's declared ids and the new records' ids are declared; x's edge store is a prefix of the new one; with one record per id every new record reads back |
| SemistaticGraph.ExtendCheck | include/fruit/impl/data_structures/semistatic_graph.h:203-205 | extending a fully constructed graph leaves it fully constructed exactly when every id the new records mention is declared by x or by one of them |
| SemistaticGraph.HoldsCarried | include/fruit/impl/data_structures/semistatic_graph.h:180-181 | a stored record still reads back in a graph that keeps its node, the indices of x's ids and x's edge store as a prefix |
| SemistaticGraph.RecordReadsBack | include/fruit/impl/data_structures/semistatic_graph.h:104-113 | a stored record reads back through the interface: find yields its node, getNode its value, isTerminal its flag, and the i-th edge from neighborsBegin leads to the node of its i-th edge target |
| SlotEncoding.AddressEven | include/fruit/impl/data_structures/semistatic_graph.h:29-30 | with an aligned store, every element address has 0 in its low-order bit and is at least 2 |
| SlotEncoding.Encode | include/fruit/impl/data_structures/semistatic_graph.h:71-74 | the word is 0 exactly for a terminal node, 1 exactly for a placeholder, and an even address for a run |
| SlotEncoding.Decode | include/fruit/impl/data_structures/semistatic_graph.h:71-74 | a decoded slot is one whose run, if any, starts inside the store past its unused first element |
| SlotEncoding.DecodeEncode | include/fruit/impl/data_structures/semistatic_graph.h:71-74 | decoding an encoded slot gives the slot back |
| SlotEncoding.EncodeDecode | include/fruit/impl/data_structures/semistatic_graph.h:71-74 | a word that decodes to a slot is that slot's encoding |
| SlotEncoding.EncodeInjective | include/fruit/impl/data_structures/semistatic_graph.h:71-74 | distinct slots are stored as distinct words: the three-way tag is unambiguous |
| GraphScenario.DanglingTarget | include/fruit/impl/data_structures/semistatic_graph.h:60-62 | building {a -> [b]} makes b known but not declared, so checkFullyConstructed fails, and b is the only id left undeclared |
| GraphScenario.LateDeclaredCheck | include/fruit/impl/data_structures/semistatic_graph.h:177-179 | extending a graph whose only undeclared id is b with a record for b makes checkFullyConstructed pass |
| GraphScenario.DeclareTerminal | include/fruit/impl/data_structures/semistatic_graph.h:177-179 | extending a graph by a terminal record for an undeclared id b stores that record and keeps every other id's record |
| GraphScenario.EdgeToTerminal | include/fruit/impl/data_structures/semistatic_graph.h:177-179 | an edge a -> b stored before b was declared still reads back once b's terminal record holds, and leads to b's node with b's value |
| GraphScenario.LateDeclaredTarget | include/fruit/impl/data_structures/semistatic_graph.h:177-179 | after declaring b as terminal by an extension, a keeps its value and its edge, which leads to b's terminal node with b's value |

## Left out

- The hash of a key: `std::hash` is foreign code, so it is the parameter `keyHash`, and the model assumes nothing about it beyond its range.
- The choice of the multiplier `a` and the use of the `beta` constant: the declarations do not say how `a` is chosen, so `a` is a parameter. Lookups are correct for every `a`.
- The construction's algorithms: the bodies of the constructors and of `insert` are not part of this model.
  - `SemistaticMap.Build` and `SemistaticMap.Extend` insert one bucket's group at a time.
  - The model's graph constructors allocate an index for every mentioned id (`SemistaticGraph.AllocRecords`), build the index map from the new (id, index) pairs, then store the nodes.
  - These follow the declarations and their comments.
- `SemistaticMap.Build`: requires fewer than 2^64 pairs, the range of `std::size_t`.
- `SemistaticMap.Build`: takes its bucket width from the corrected `Hashing.PickNumBits`, so for 2^31 < n < 2^64 pairs it builds a valid map, where the source's `pickNumBits` loop is undefined (see Findings). For those n the row states the intended behaviour, not the source's.
- `SemistaticGraph.GetOrAllocate`: reads the construction's own list of the new (id, index) pairs handed out so far (`Allocation.ids`) as well as the base index map, so a repeated new id gets back its first index. That list stands for the construction's record of new elements, like the `newElements` an extension passes to the map (semistatic_map.h:95). It is not state of `getOrAllocateInternalNodeId`: the declared class keeps only `nodeIndexMap`, `firstUnusedIndex`, `nodes` and `edgesStorage`, and the map's `insert` is private, so how the source remembers a new id between calls is not shown.
- `SemistaticMap.Build`: requires distinct keys, which the declaration of the constructor does not state.
  - With a repeated key, `find` would depend on the order within a bucket, which the constructor's body (not part of this model) decides.
  - The graph builds its index map from distinct ids only.
- `SemistaticGraph.Build`: requires fewer than 2^64 mentioned ids (with repetitions), for the same reason.
- Storage sharing between objects: a shallow copy's shared vector is modelled as one append-only sequence of which the source's is a prefix.
  - The lifetime rules ("must be destroyed before") are C++ ownership and have no counterpart.
  - So are the capacity requirement of `insert` (no reallocation) and the pointer-level sharing of `x`'s edge store by an extended graph.
- Move and copy constructors, deleted assignments, and the invalid default-constructed state: object plumbing with no values to model.
- `const_node_iterator`: it mirrors `node_iterator` on the same data.
- `node_iterator::operator==`: only its declaration is given; it presumably compares the underlying iterators, and node iterators are plain indices here.
- `printEdgesBegin`, `<iostream>` and the `FRUIT_EXTRA_DEBUG` key field: debug output. `checkFullyConstructed` is modelled as the boolean it checks, not the error it emits.
- `getNode()` returns a mutable reference. The model reads through `SemistaticGraph.GetNode` and writes through `SemistaticGraph.SetNode`; other uses of the reference (keeping it across later changes) are C++ aliasing and are not modelled.
- `SemistaticGraph.NeighborsBegin`: requires a node with a run, which is stronger than the source's stated `!isTerminal()`. A placeholder is not terminal, but its word 1 is no address.
- Duplicate records for one id: the source states nothing.
  - The model stores records in order, so the last one wins.
  - `SemistaticGraph.Build` and `SemistaticGraph.Extend` promise that every record reads back only when ids are distinct.
- Placeholder nodes hold a caller-supplied value `blank`: the declarations do not say what value a placeholder node holds.
- `Word` is 64 bits wide: `std::uintptr_t` on a 64-bit platform. Other widths are not modelled.
- Cost claims (O(1) lookups, O(n log n) extension): performance, not behaviour.

## Findings

| source | as written | input that shows it | evidently intended | confidence | as-written member | corrected member |
|---|---|---|---|---|---|---|
| include/fruit/impl/data_structures/semistatic_map.h:57-63 | `pickNumBits` tests `(1U << result) < n`, a shift of a 32-bit `unsigned int` | n = 2^31 + 1: the loop reaches `result == 32`, where `1U << 32` is undefined behaviour (on common hardware it yields 1 and the loop never ends) | the least b >= 1 with 2^b >= n, which is at most 64 for any `size_t` n; computed without ever shifting by the full word width, e.g. by stopping the loop at b == 64 before shifting a 64-bit one | not executed; follows from the C++ shift rules; it needs more than 2^31 keys | Hashing.PickNumBitsAsWrittenUndefined | Hashing.PickNumBits |

=== FILE: graph_scenario.dfy ===
/**
 * A typical use of the graph: a node with an edge to an id that no record
 * declares yet, then an extension that declares it.
 */
module GraphScenario {
  import opened Hashing
  import opened SemistaticGraph

  /**
   * Building {a -> [b]} leaves b a placeholder, so checkFullyConstructed
   * fails, and b is the only id left undeclared.
   */
  lemma DanglingTarget<I(!new), N(!new)>(keyHash: I -> Word, mult: Word, blank: N, a: I, b: I, va: N)
    requires a != b
    ensures var g1 := Build(keyHash, mult, blank, [NodeRecord(a, va, false, [b])]);
            && Known(g1, b)
            && !Declared(g1, b)
            && !CheckFullyConstructed(g1)
            && (forall k :: Known(g1, k) && k != b ==> Declared(g1, k))
            && Holds(g1, NodeRecord(a, va, false, [b]))
  {
    var r1 := NodeRecord(a, va, false, [b]);
    assert AllIds([r1]) == [a, b];
    assert b in RecordIds(r1);
    assert DeclaredSet([r1]) == {a};
    var g1 := Build(keyHash, mult, blank, [r1]);
    assert Known(g1, b) && !Declared(g1, b);
  }

  /**
   * Extending a graph whose only undeclared id is b with a record for b
   * makes checkFullyConstructed pass.
   */
  lemma LateDeclaredCheck<I(!new), N(!new)>(g1: Graph<I, N>, blank: N, b: I, vb: N)
    requires Valid(g1)
    requires !Declared(g1, b)
    requires forall k :: Known(g1, k) && k != b ==> Declared(g1, k)
    ensures CheckFullyConstructed(Extend(g1, [NodeRecord(b, vb, true, [])], blank))
  {
    var r2 := NodeRecord(b, vb, true, []);
    assert IdSet([r2]) == {b} by {
      assert AllIds([r2]) == [b];
    }
    assert DeclaredSet([r2]) == {b};
    var g2 := Extend(g1, [r2], blank);
    forall k | Known(g2, k)
      ensures Declared(g2, k)
    {
      if k != b {
        assert Known(g1, k);
      }
    }
  }

  /**
   * Where a has the single edge to b, declaring b as terminal by an
   * extension keeps a's value and edge, and that edge leads to the
   * terminal node of b with b's value.
   */
  lemma LateDeclaredTarget<I(!new), N(!new)>(g1: Graph<I, N>, blank: N, a: I, b: I, va: N, vb: N)
    requires Valid(g1)
    requires a != b
    requires Holds(g1, NodeRecord(a, va, false, [b]))
    requires !Declared(g1, b)
    ensures var g2 := Extend(g1, [NodeRecord(b, vb, true, [])], blank);
            && Find(g2, a) < |g2.nodes|
            && GetNode(g2, Find(g2, a)) == va
            && !IsTerminal(g2, Find(g2, a))
            && NeighborsReadBack(g2, Find(g2, a), [b])
            && Find(g2, b) < |g2.nodes|
            && IsTerminal(g2, Find(g2, b))
            && GetNode(g2, Find(g2, b)) == vb
  {
    DeclareTerminal(g1, blank, b, vb);
    EdgeToTerminal(g1, Extend(g1, [NodeRecord(b, vb, true, [])], blank), a, b, va, vb);
  }

  /**
   * Declaring an undeclared id b as a terminal node by an extension stores
   * b's record and keeps every record of another id that held before.
   */
  lemma DeclareTerminal<I(!new), N(!new)>(g1: Graph<I, N>, blank: N, b: I, vb: N)
    requires Valid(g1)
    requires !Declared(g1, b)
    ensures forall r :: r in [NodeRecord(b, vb, true, [])] ==> !Declared(g1, r.id)
    ensures var g2 := Extend(g1, [NodeRecord(b, vb, true, [])], blank);
            && Valid(g2)
            && Holds(g2, NodeRecord(b, vb, true, []))
            && forall r :: Holds(g1, r) && r.id != b ==> Holds(g2, r)
  {
    var r2 := NodeRecord(b, vb, true, []);
    assert DeclaredSet([r2]) == {b};
    assert forall r :: r in [r2] ==> !Declared(g1, r.id) by {
      forall r | r in [r2]
        ensures !Declared(g1, r.id)
      {
        assert r == r2;
      }
    }
    var g2 := Extend(g1, [r2], blank);
    assert DistinctIds([r2]);
    assert r2 in [r2];
  }

  /**
   * In a graph g that carries over a's record a -> [b] from g1 and stores a
   * terminal b, a's edge leads to b's terminal node.
   */
  lemma EdgeToTerminal<I(!new), N(!new)>(g1: Graph<I, N>, g: Graph<I, N>, a: I, b: I, va: N, vb: N)
    requires Valid(g1) && Valid(g)
    requires a != b
    requires Holds(g1, NodeRecord(a, va, false, [b]))
    requires forall r :: Holds(g1, r) && r.id != b ==> Holds(g, r)
    requires Holds(g, NodeRecord(b, vb, true, []))
    ensures Find(g, a) < |g.nodes|
    ensures GetNode(g, Find(g, a)) == va
    ensures !IsTerminal(g, Find(g, a))
    ensures NeighborsReadBack(g, Find(g, a), [b])
    ensures Find(g, b) < |g.nodes|
    ensures IsTerminal(g, Find(g, b))
    ensures GetNode(g, Find(g, b)) == vb
  {
    RecordReadsBack(g, NodeRecord(a, va, false, [b]));
    RecordReadsBack(g, NodeRecord(b, vb, true, []));
  }
}

=== FILE: hashing.dfy ===
/**
 * The arithmetic of a semistatic map's hash function: a multiplicative hash
 * on machine words with wrap-around, and the choice of the bucket bit-width.
 */
module Hashing {
  import opened Wrappers

  /** Bits in the machine word (std::uintptr_t on a 64-bit platform). */
  const WordBits: nat := 64

  function Pow2(n: nat): (r: nat)
    ensures r >= 1
  {
    if n == 0 then 1 else 2 * Pow2(n - 1)
  }

  /** One more than the largest machine word, 2^64. */
  const Modulus: nat := 0x1_0000_0000_0000_0000

  lemma ModulusIsPow2()
    ensures Modulus == Pow2(WordBits)
  {
    assert Pow2(4) == 0x10;
    Pow2Add(4, 4);
    assert Pow2(8) == 0x100;
    Pow2Add(8, 8);
    assert Pow2(16) == 0x1_0000;
    Pow2Add(16, 16);
    assert Pow2(32) == 0x1_0000_0000;
    Pow2Add(32, 32);
  }

  /** An unsigned machine word: what std::hash returns and what the multiplier is. */
  type Word = x: nat | x < Modulus

  lemma {:induction false} Pow2Add(a: nat, b: nat)
    ensures Pow2(a + b) == Pow2(a) * Pow2(b)
  {
    if a > 0 {
      Pow2Add(a - 1, b);
      assert Pow2(a + b) == 2 * Pow2(a - 1 + b);
    }
  }

  lemma {:induction false} Pow2Monotonic(a: nat, b: nat)
    requires a <= b
    ensures Pow2(a) <= Pow2(b)
  {
    if a < b {
      Pow2Monotonic(a, b - 1);
    }
  }

  /**
   * The multiplicative hash: multiply by `a` with wrap-around at the word
   * size, then keep the top bits by shifting right by `shift`.
   */
  datatype HashFunction = HashFunction(a: Word, shift: nat)

  /**
   * The hash of a word. With `shift == WordBits - numBits` the result is
   * below 2^numBits, so it always indexes a lookup table of 2^numBits buckets.
   * The shift stays below the word width: shifting a word by its full width
   * is undefined in C++.
   */
  function Hash(hf: HashFunction, x: Word): (h: nat)
    requires hf.shift < WordBits
    ensures h < Pow2(WordBits - hf.shift)
  {
    var product := WrapMul(hf.a, x);
    ShiftBound(product, hf.shift);
    ShiftRight(product, hf.shift)
  }

  /** Unsigned multiplication of two words, wrapping around at the word size. */
  function WrapMul(a: Word, x: Word): Word
  {
    (a * x) % Modulus
  }

  /** Logical right shift: `shift` halvings, each dropping the low bit. */
  function ShiftRight(p: nat, shift: nat): nat
  {
    if shift == 0 then p else ShiftRight(p / 2, shift - 1)
  }

  /** Below 2^(a + shift), shifting right by `shift` leaves something below 2^a. */
  lemma {:induction false} ShiftRightBound(p: nat, a: nat, shift: nat)
    requires p < Pow2(a + shift)
    ensures ShiftRight(p, shift) < Pow2(a)
  {
    if shift > 0 {
      assert Pow2(a + shift) == 2 * Pow2(a + (shift - 1));
      ShiftRightBound(p / 2, a, shift - 1);
    }
  }

  /** Shifting a word right by `shift` leaves a value of WordBits - shift bits. */
  lemma ShiftBound(p: Word, shift: nat)
    requires shift <= WordBits
    ensures ShiftRight(p, shift) < Pow2(WordBits - shift)
  {
    var a := WordBits - shift;
    assert a + shift == WordBits;
    ModulusIsPow2();
    ShiftRightBound(p, a, shift);
  }

  /** The least b >= 1 whose power of two covers n, searching upward from r. */
  function PickFrom(n: nat, r: nat): (b: nat)
    requires 1 <= r
    requires r == 1 || Pow2(r - 1) < n
    ensures r <= b
    ensures n <= Pow2(b)
    ensures b == 1 || Pow2(b - 1) < n
    decreases n - Pow2(r)
  {
    if Pow2(r) < n then PickFrom(n, r + 1) else r
  }

  /**
   * The bucket bit-width for n expected keys: the least b >= 1 with
   * 2^b >= n, so that either b == 1 or 2^(b-1) < n.
   */
  function PickNumBits(n: nat): (b: nat)
    ensures 1 <= b
    ensures n <= Pow2(b)
    ensures b == 1 || Pow2(b - 1) < n
  {
    PickFrom(n, 1)
  }

  /** For a count that fits a machine word, the chosen width fits the word too. */
  lemma PickNumBitsFitsWord(n: nat)
    requires n <= Modulus
    ensures PickNumBits(n) <= WordBits
  {
    var b := PickNumBits(n);
    ModulusIsPow2();
    if b > WordBits {
      Pow2Monotonic(WordBits, b - 1);
    }
  }

  /** Two widths satisfying the characterisation of PickNumBits are equal. */
  lemma {:induction false} LeastWidthUnique(n: nat, b: nat, c: nat)
    requires 1 <= b && n <= Pow2(b) && (b == 1 || Pow2(b - 1) < n)
    requires 1 <= c && n <= Pow2(c) && (c == 1 || Pow2(c - 1) < n)
    ensures b == c
  {
    if b < c {
      Pow2Monotonic(b, c - 1);
    } else if c < b {
      Pow2Monotonic(c, b - 1);
    }
  }

  /**
   * `1U << r` evaluated on a 32-bit unsigned operand: defined only for
   * r < 32. None stands for the undefined shift.
   */
  function ShiftOne32(r: nat): (v: Option<nat>)
    ensures r < 32 ==> v == Some(Pow2(r))
    ensures 32 <= r ==> v == None
  {
    if r < 32 then Some(Pow2(r)) else None
  }

  /** The width search as written, with the 32-bit shift, from r upward. */
  function PickFromAsWritten(n: nat, r: nat): (w: Option<nat>)
    ensures w.Some? ==> r <= w.value < 32 && n <= Pow2(w.value) && (w.value == r || Pow2(w.value - 1) < n)
    ensures w.None? && r <= 31 ==> Pow2(31) < n
    decreases 32 - r
  {
    match ShiftOne32(r)
    case None => None
    case Some(p) => if p < n then PickFromAsWritten(n, r + 1) else Some(r)
  }

  /**
   * pickNumBits as written: None when the loop reaches a shift by 32 or
   * more, which is undefined behaviour.
   */
  function PickNumBitsAsWritten(n: nat): (w: Option<nat>)
    ensures w.Some? ==> 1 <= w.value < 32 && n <= Pow2(w.value) && (w.value == 1 || Pow2(w.value - 1) < n)
    ensures w.None? <==> Pow2(31) < n
  {
    var w := PickFromAsWritten(n, 1);
    if w.Some? then
      Pow2Monotonic(w.value, 31);
      w
    else
      w
  }

  lemma {:induction false} PickFromAsWrittenAgrees(n: nat, r: nat)
    requires 1 <= r <= 31
    requires r == 1 || Pow2(r - 1) < n
    requires n <= Pow2(31)
    ensures PickFromAsWritten(n, r) == Some(PickFrom(n, r))
    decreases 32 - r
  {
    if Pow2(r) < n {
      if r == 31 {
        assert false;
      }
      PickFromAsWrittenAgrees(n, r + 1);
    }
  }

  /** Up to 2^31 expected keys the as-written search computes the intended width. */
  lemma PickNumBitsAsWrittenAgrees(n: nat)
    requires n <= Pow2(31)
    ensures PickNumBitsAsWritten(n) == Some(PickNumBits(n))
  {
    PickFromAsWrittenAgrees(n, 1);
  }

  lemma {:induction false} PickFromAsWrittenUndefined(n: nat, r: nat)
    requires Pow2(31) < n
    ensures PickFromAsWritten(n, r) == None
    decreases 32 - r
  {
    if r < 32 {
      Pow2Monotonic(r, 31);
      PickFromAsWrittenUndefined(n, r + 1);
    }
  }

  /**
   * Above 2^31 expected keys every shift the as-written loop evaluates is
   * still below n, so it reaches `1U << 32`: undefined, although the
   * intended width (at most WordBits) exists.
   */
  lemma PickNumBitsAsWrittenUndefined(n: nat)
    requires Pow2(31) < n <= Modulus
    ensures PickNumBitsAsWritten(n) == None
    ensures PickNumBits(n) <= WordBits
  {
    PickFromAsWrittenUndefined(n, 1);
    PickNumBitsFitsWord(n);
  }
}

=== FILE: pairs.dfy ===
/**
 * Association lists: sequences of (key, value) pairs, the shape of the entry
 * store of a semistatic map and of each of its buckets.
 */
module Pairs {
  import opened Wrappers

  /** The keys that occur in an association list. */
  ghost function KeysOf<K, V>(s: seq<(K, V)>): set<K>
  {
    set p | p in s :: p.0
  }

  /** No key occurs twice. */
  predicate KeysDistinct<K(==), V>(s: seq<(K, V)>)
  {
    forall i, j :: 0 <= i < j < |s| ==> s[i].0 != s[j].0
  }

  /**
   * The value of the first pair whose key is `k`: what a left-to-right scan
   * of a range of the entry store finds.
   */
  function Assoc<K(==), V>(s: seq<(K, V)>, k: K): (r: Option<V>)
    ensures r.None? <==> k !in KeysOf(s)
    ensures r.Some? ==> (k, r.value) in s
  {
    if |s| == 0 then None
    else if s[0].0 == k then Some(s[0].1)
    else
      var r := Assoc(s[1..], k);
      assert KeysOf(s) == {s[0].0} + KeysOf(s[1..]) by {
        assert s == [s[0]] + s[1..];
      }
      r
  }

  /** Scanning a concatenation scans the first part, then the second. */
  lemma {:induction false} AssocAppend<K, V>(a: seq<(K, V)>, b: seq<(K, V)>, k: K)
    ensures Assoc(a + b, k) == if k in KeysOf(a) then Assoc(a, k) else Assoc(b, k)
  {
    if |a| == 0 {
      assert a + b == b;
    } else {
      assert (a + b)[1..] == a[1..] + b;
      AssocAppend(a[1..], b, k);
      assert KeysOf(a) == {a[0].0} + KeysOf(a[1..]) by {
        assert a == [a[0]] + a[1..];
      }
    }
  }

  /** With distinct keys, the scan for a stored key finds the value stored with it. */
  lemma {:induction false} AssocUnique<K, V>(s: seq<(K, V)>, p: (K, V))
    requires KeysDistinct(s)
    requires p in s
    ensures Assoc(s, p.0) == Some(p.1)
  {
    if s[0].0 != p.0 {
      assert p in s[1..] by {
        assert s == [s[0]] + s[1..];
      }
      AssocUnique(s[1..], p);
    }
  }

  /** Prepending a pair whose key is new keeps the keys distinct. */
  lemma ConsDistinct<K, V>(x: (K, V), s: seq<(K, V)>)
    requires KeysDistinct(s)
    requires x.0 !in KeysOf(s)
    ensures KeysDistinct([x] + s)
  {
    var t := [x] + s;
    forall i, j | 0 <= i < j < |t|
      ensures t[i].0 != t[j].0
    {
      if i == 0 {
        assert t[j] == s[j - 1];
        assert t[j] in s;
      } else {
        assert t[i] == s[i - 1] && t[j] == s[j - 1];
      }
    }
  }

  /** Concatenating two lists with distinct, disjoint keys keeps the keys distinct. */
  lemma AppendDistinct<K, V>(a: seq<(K, V)>, b: seq<(K, V)>)
    requires KeysDistinct(a) && KeysDistinct(b)
    requires KeysOf(a) !! KeysOf(b)
    ensures KeysDistinct(a + b)
    ensures KeysOf(a + b) == KeysOf(a) + KeysOf(b)
  {
    var t := a + b;
    forall i, j | 0 <= i < j < |t|
      ensures t[i].0 != t[j].0
    {
      if j < |a| {
        assert t[i] == a[i] && t[j] == a[j];
      } else if i >= |a| {
        assert t[i] == b[i - |a|] && t[j] == b[j - |a|];
      } else {
        assert t[i] == a[i] && t[j] == b[j - |a|];
        assert t[i] in a && t[j] in b;
        assert t[i].0 in KeysOf(a) && t[j].0 in KeysOf(b);
      }
    }
    forall k | k in KeysOf(a + b)
      ensures k in KeysOf(a) + KeysOf(b)
    {
      var p :| p in a + b && p.0 == k;
      assert p in a || p in b;
    }
    forall k | k in KeysOf(a) + KeysOf(b)
      ensures k in KeysOf(a + b)
    {
      if k in KeysOf(a) {
        var p :| p in a && p.0 == k;
        assert p in a + b;
      } else {
        var p :| p in b && p.0 == k;
        assert p in a + b;
      }
    }
  }
}

=== FILE: semistatic_graph.dfy ===
/**
 * A semistatic graph: a directed graph whose nodes are mostly fixed when it
 * is built and which can later be extended by a few nodes. External node
 * ids are mapped by a semistatic map to dense indices into `nodes`; edges
 * are stored as such indices, as one contiguous run per node in an
 * append-only edge store whose first element is never used. A node's slot
 * says whether it is terminal (no outgoing edges), a placeholder (known only
 * as the target of some edge, not declared yet) or where its run starts.
 * A run's length is not stored: the caller knows it from the node's value.
 */
module SemistaticGraph {
  import opened Wrappers
  import opened Pairs
  import opened Hashing
  import SM = SemistaticMap

  /** A dense index into `nodes`. */
  datatype InternalNodeId = InternalNodeId(id: nat)

  /** The order on internal ids: that of their indices. */
  predicate Less(a: InternalNodeId, b: InternalNodeId)
  {
    a.id < b.id
  }

  /** Less is a strict total order whose equivalence is equality of ids. */
  lemma LessIsStrictTotalOrder(a: InternalNodeId, b: InternalNodeId, c: InternalNodeId)
    ensures !Less(a, a)
    ensures Less(a, b) && Less(b, c) ==> Less(a, c)
    ensures a == b || Less(a, b) || Less(b, a)
  {
  }

  /** The three-way tag of a node's edge field. */
  datatype Slot = Terminal | Placeholder | Edges(offset: nat)

  datatype NodeData<+N> = NodeData(node: N, slot: Slot)

  datatype Graph<!I, +N> = Graph(
    nodeIndexMap: SM.SMap<I, InternalNodeId>,
    firstUnusedIndex: nat,
    nodes: seq<NodeData<N>>,
    edgesStorage: seq<InternalNodeId>)

  /**
   * What the caller supplies per node: its id, its value, whether it is
   * terminal and, when it is not, its outgoing edges in order.
   */
  datatype NodeRecord<I, N> = NodeRecord(id: I, value: N, terminal: bool, neighbors: seq<I>)

  /** A forward-only cursor on the edge store: the position it points at. */
  datatype EdgeCursor = EdgeCursor(pos: nat)

  // ---------------------------------------------------------------------
  // The id-to-index map and the graph invariant

  /** Every id in the map has an index below n. */
  ghost predicate IndexBelow<I(!new)>(m: SM.SMap<I, InternalNodeId>, n: nat)
    requires SM.Valid(m)
  {
    forall k :: SM.Find(m, k).Some? ==> SM.Find(m, k).value.id < n
  }

  /** Distinct ids have distinct indices. */
  ghost predicate Injective<I(!new)>(m: SM.SMap<I, InternalNodeId>)
    requires SM.Valid(m)
  {
    forall k1, k2 :: SM.Find(m, k1).Some? && SM.Find(m, k1) == SM.Find(m, k2) ==> k1 == k2
  }

  /** Some id has index i. */
  ghost predicate Owned<I(!new)>(m: SM.SMap<I, InternalNodeId>, i: nat)
    requires SM.Valid(m)
  {
    exists k :: SM.Find(m, k) == Some(InternalNodeId(i))
  }

  /** A slot's run, if it has one, starts after the unused first element and inside the store. */
  predicate SlotOk(s: Slot, storeSize: nat)
  {
    s.Edges? ==> 1 <= s.offset <= storeSize
  }

  /**
   * The index-map half of the graph invariant: the map sends exactly the
   * known ids, one-to-one, onto the indices below n.
   */
  ghost predicate IndexOk<I(!new)>(m: SM.SMap<I, InternalNodeId>, n: nat)
  {
    && SM.Valid(m)
    && IndexBelow(m, n)
    && Injective(m)
    && (forall i :: 0 <= i < n ==> Owned(m, i))
  }

  /**
   * The storage half of the graph invariant: every stored edge (past the
   * unused first element) is a node index and every run starts inside the store.
   */
  ghost predicate StoreOk<N>(nodes: seq<NodeData<N>>, edgesStorage: seq<InternalNodeId>)
  {
    && |edgesStorage| >= 1
    && (forall j :: 1 <= j < |edgesStorage| ==> edgesStorage[j].id < |nodes|)
    && (forall i :: 0 <= i < |nodes| ==> SlotOk(nodes[i].slot, |edgesStorage|))
  }

  /** The graph invariant. */
  ghost predicate Valid<I(!new), N(!new)>(g: Graph<I, N>)
  {
    && IndexOk(g.nodeIndexMap, |g.nodes|)
    && g.firstUnusedIndex == |g.nodes|
    && StoreOk(g.nodes, g.edgesStorage)
  }

  /** Replacing one node by one whose slot fits the store keeps the storage invariant. */
  lemma StoreOkUpdate<N>(nodes: seq<NodeData<N>>, edgesStorage: seq<InternalNodeId>, i: nat, d: NodeData<N>)
    requires StoreOk(nodes, edgesStorage)
    requires i < |nodes|
    requires SlotOk(d.slot, |edgesStorage|)
    ensures StoreOk(nodes[i := d], edgesStorage)
  {
  }

  /** Appending a run of node indices, and pointing one node at it, keeps the storage invariant. */
  lemma StoreOkAppend<N>(nodes: seq<NodeData<N>>, edgesStorage: seq<InternalNodeId>, i: nat, d: NodeData<N>, run: seq<InternalNodeId>)
    requires StoreOk(nodes, edgesStorage)
    requires i < |nodes|
    requires SlotOk(d.slot, |edgesStorage|)
    requires forall j :: 0 <= j < |run| ==> run[j].id < |nodes|
    ensures StoreOk(nodes[i := d], edgesStorage + run)
  {
    var e2 := edgesStorage + run;
    forall j | 1 <= j < |e2|
      ensures e2[j].id < |nodes|
    {
      if j >= |edgesStorage| {
        assert e2[j] == run[j - |edgesStorage|];
      }
    }
  }

  /** The id is in the map: declared, or the target of some edge. */
  ghost predicate Known<I(!new), N(!new)>(g: Graph<I, N>, k: I)
    requires SM.Valid(g.nodeIndexMap)
  {
    SM.Find(g.nodeIndexMap, k).Some?
  }

  /** The index of a known id. */
  ghost function IndexOf<I(!new), N(!new)>(g: Graph<I, N>, k: I): (i: nat)
    requires Valid(g)
    requires Known(g, k)
    ensures i < |g.nodes|
  {
    SM.Find(g.nodeIndexMap, k).value.id
  }

  /** The id is known and its node has been given its own record (it is not a placeholder). */
  ghost predicate Declared<I(!new), N(!new)>(g: Graph<I, N>, k: I)
    requires Valid(g)
  {
    Known(g, k) && !g.nodes[IndexOf(g, k)].slot.Placeholder?
  }

  // ---------------------------------------------------------------------
  // Lookup

  /** find: the node's index, or |nodes| (end()) exactly when the id is unknown. */
  function Find<I(==,!new), N(!new)>(g: Graph<I, N>, id: I): (it: nat)
    requires Valid(g)
    ensures it <= |g.nodes|
    ensures it == |g.nodes| <==> !Known(g, id)
    ensures it < |g.nodes| ==> it == IndexOf(g, id)
  {
    match SM.Find(g.nodeIndexMap, id)
    case Some(i) => i.id
    case None => |g.nodes|
  }

  /** at: the id must be known; then it agrees with find and is a valid index. */
  function At<I(==,!new), N(!new)>(g: Graph<I, N>, id: I): (it: nat)
    requires Valid(g)
    requires Known(g, id)
    ensures it < |g.nodes|
    ensures it == Find(g, id)
  {
    SM.At(g.nodeIndexMap, id).id
  }

  // ---------------------------------------------------------------------
  // Node iterators

  function GetNode<I, N>(g: Graph<I, N>, it: nat): N
    requires it < |g.nodes|
  {
    g.nodes[it].node
  }

  predicate IsTerminal<I, N>(g: Graph<I, N>, it: nat)
    requires it < |g.nodes|
  {
    g.nodes[it].slot.Terminal?
  }

  /**
   * An assignment through the reference getNode() returns: the node's value
   * becomes v. Its edges and every other node stay as they were.
   */
  function SetNode<I(!new), N(!new)>(g: Graph<I, N>, it: nat, v: N): (g2: Graph<I, N>)
    requires Valid(g)
    requires it < |g.nodes|
    ensures Valid(g2)
    ensures |g2.nodes| == |g.nodes|
    ensures GetNode(g2, it) == v
    ensures g2.nodes[it].slot == g.nodes[it].slot
    ensures forall j :: 0 <= j < |g.nodes| && j != it ==> g2.nodes[j] == g.nodes[j]
    ensures g2.nodeIndexMap == g.nodeIndexMap
    ensures g2.edgesStorage == g.edgesStorage
    ensures forall r :: Holds(g, r) && Find(g, r.id) != it ==> Holds(g2, r)
  {
    g.(nodes := g.nodes[it := NodeData(v, g.nodes[it].slot)])
  }

  /** Writing back the value getNode() reads leaves the graph as it was. */
  lemma SetNodeGetNode<I(!new), N(!new)>(g: Graph<I, N>, it: nat)
    requires Valid(g)
    requires it < |g.nodes|
    ensures SetNode(g, it, GetNode(g, it)) == g
  {
    assert SetNode(g, it, GetNode(g, it)).nodes == g.nodes;
  }

  /**
   * setTerminal: the node becomes terminal, keeping its value. Nothing else
   * changes; its old run stays in the store, unreachable.
   */
  function SetTerminal<I(!new), N(!new)>(g: Graph<I, N>, it: nat): (g2: Graph<I, N>)
    requires Valid(g)
    requires it < |g.nodes|
    ensures Valid(g2)
    ensures |g2.nodes| == |g.nodes|
    ensures IsTerminal(g2, it)
    ensures GetNode(g2, it) == GetNode(g, it)
    ensures forall j :: 0 <= j < |g.nodes| && j != it ==> g2.nodes[j] == g.nodes[j]
    ensures g2.nodeIndexMap == g.nodeIndexMap
    ensures g2.edgesStorage == g.edgesStorage
  {
    g.(nodes := g.nodes[it := NodeData(g.nodes[it].node, Terminal)])
  }

  /** Setting a node terminal twice is the same as once. */
  lemma SetTerminalIdempotent<I(!new), N(!new)>(g: Graph<I, N>, it: nat)
    requires Valid(g)
    requires it < |g.nodes|
    ensures SetTerminal(SetTerminal(g, it), it) == SetTerminal(g, it)
  {
  }

  /**
   * neighborsBegin: a cursor at the start of the node's run, which never
   * includes the unused first element of the store.
   */
  function NeighborsBegin<I(!new), N(!new)>(g: Graph<I, N>, it: nat): (c: EdgeCursor)
    requires Valid(g)
    requires it < |g.nodes|
    requires g.nodes[it].slot.Edges?
    ensures 1 <= c.pos <= |g.edgesStorage|
  {
    EdgeCursor(g.nodes[it].slot.offset)
  }

  /** operator++ on an edge cursor. */
  function Next(c: EdgeCursor): EdgeCursor
  {
    EdgeCursor(c.pos + 1)
  }

  /** Applies operator++ i times: the cursor moves i elements on. */
  function Advance(c: EdgeCursor, i: nat): (c2: EdgeCursor)
    ensures c2.pos == c.pos + i
    decreases i
  {
    if i == 0 then c else Advance(Next(c), i - 1)
  }

  /** getNodeIterator(graph): the node the cursor's edge points to, a valid index. */
  function Target<I(!new), N(!new)>(g: Graph<I, N>, c: EdgeCursor): (it: nat)
    requires Valid(g)
    requires 1 <= c.pos < |g.edgesStorage|
    ensures it < |g.nodes|
  {
    g.edgesStorage[c.pos].id
  }

  /** getNodeIterator(i, graph): the node the i-th edge from the cursor points to. */
  function TargetAt<I(!new), N(!new)>(g: Graph<I, N>, c: EdgeCursor, i: nat): (it: nat)
    requires Valid(g)
    requires 1 <= c.pos
    requires c.pos + i < |g.edgesStorage|
    ensures it < |g.nodes|
  {
    g.edgesStorage[c.pos + i].id
  }

  /** getNodeIterator(i, graph) is i times operator++ followed by getNodeIterator(graph). */
  lemma TargetAtIsAdvanceThenTarget<I(!new), N(!new)>(g: Graph<I, N>, c: EdgeCursor, i: nat)
    requires Valid(g)
    requires 1 <= c.pos
    requires c.pos + i < |g.edgesStorage|
    ensures 1 <= Advance(c, i).pos < |g.edgesStorage|
    ensures TargetAt(g, c, i) == Target(g, Advance(c, i))
  {
  }

  /**
   * changeNodeToTerminal: the id must be known. Its node becomes terminal;
   * no other node, no index and no edge changes, so every other stored
   * record still reads back.
   */
  function ChangeNodeToTerminal<I(==,!new), N(!new)>(g: Graph<I, N>, id: I): (g2: Graph<I, N>)
    requires Valid(g)
    requires Known(g, id)
    ensures Valid(g2)
    ensures g2.nodeIndexMap == g.nodeIndexMap
    ensures IsTerminal(g2, IndexOf(g2, id))
    ensures Declared(g2, id)
    ensures GetNode(g2, IndexOf(g2, id)) == GetNode(g, IndexOf(g, id))
    ensures forall k :: Known(g, k) && k != id ==> g2.nodes[IndexOf(g2, k)] == g.nodes[IndexOf(g, k)]
    ensures |g2.nodes| == |g.nodes|
    ensures g2.edgesStorage == g.edgesStorage
    ensures forall r :: Holds(g, r) && r.id != id ==> Holds(g2, r)
  {
    var g2 := SetTerminal(g, At(g, id));
    assert forall k :: Known(g, k) && k != id ==> IndexOf(g, k) != IndexOf(g, id);
    g2
  }

  /** Changing a node to terminal twice is the same as once. */
  lemma ChangeNodeToTerminalIdempotent<I(!new), N(!new)>(g: Graph<I, N>, id: I)
    requires Valid(g)
    requires Known(g, id)
    ensures Known(ChangeNodeToTerminal(g, id), id)
    ensures ChangeNodeToTerminal(ChangeNodeToTerminal(g, id), id) == ChangeNodeToTerminal(g, id)
  {
    var g1 := ChangeNodeToTerminal(g, id);
    assert At(g1, id) == At(g, id);
    SetTerminalIdempotent(g, At(g, id));
  }

  /**
   * checkFullyConstructed: passes exactly when no slot is a placeholder,
   * that is, when every known id (every edge target included) has been
   * declared.
   */
  function CheckFullyConstructed<I(!new), N(!new)>(g: Graph<I, N>): (ok: bool)
    requires Valid(g)
    ensures ok <==> forall k :: Known(g, k) ==> Declared(g, k)
  {
    var ok := forall i | 0 <= i < |g.nodes| :: !g.nodes[i].slot.Placeholder?;
    assert ok <==> forall k :: Known(g, k) ==> Declared(g, k) by {
      if !ok {
        var i :| 0 <= i < |g.nodes| && g.nodes[i].slot.Placeholder?;
        assert Owned(g.nodeIndexMap, i);
        var k :| SM.Find(g.nodeIndexMap, k) == Some(InternalNodeId(i));
        assert Known(g, k) && !Declared(g, k);
      }
    }
    ok
  }

  // ---------------------------------------------------------------------
  // Pass 1: dense indices for every id the records mention

  /**
   * The ids allocated so far in one construction: pairs (id, index) with
   * consecutive indices from the first unused one, and the next index.
   * This is the construction's own record of new elements, from which the
   * index map is then built; it is not a field of the graph.
   */
  datatype Allocation<I> = Allocation(ids: seq<(I, InternalNodeId)>, next: nat)

  /**
   * The allocated ids are distinct and absent from the base map, and the
   * j-th one has index start + j.
   */
  ghost predicate AllocOk<I(!new)>(base: SM.SMap<I, InternalNodeId>, start: nat, st: Allocation<I>)
    requires SM.Valid(base)
  {
    && st.next == start + |st.ids|
    && (forall j :: 0 <= j < |st.ids| ==> st.ids[j].1 == InternalNodeId(start + j))
    && KeysDistinct(st.ids)
    && (forall p :: p in st.ids ==> p.0 !in SM.Keys(base))
  }

  /** The index an id has so far: from the base map, else from this construction's allocations. */
  function Resolve<I(==,!new)>(base: SM.SMap<I, InternalNodeId>, st: Allocation<I>, id: I): Option<InternalNodeId>
    requires SM.Valid(base)
  {
    match SM.Find(base, id)
    case Some(i) => Some(i)
    case None => Assoc(st.ids, id)
  }

  /**
   * getOrAllocateInternalNodeId: the index of a known id, unchanged;
   * otherwise the first unused index, which is then allocated to it. Ids
   * already known keep their indices.
   */
  function GetOrAllocate<I(==,!new)>(base: SM.SMap<I, InternalNodeId>, start: nat, st: Allocation<I>, id: I)
    : (r: (InternalNodeId, Allocation<I>))
    requires SM.Valid(base)
    requires AllocOk(base, start, st)
    ensures AllocOk(base, start, r.1)
    ensures Resolve(base, r.1, id) == Some(r.0)
    ensures Resolve(base, st, id).Some? ==> r.0 == Resolve(base, st, id).value && r.1 == st
    ensures Resolve(base, st, id).None? ==> r.0 == InternalNodeId(st.next) && r.1.next == st.next + 1
    ensures forall k :: Resolve(base, st, k).Some? ==> Resolve(base, r.1, k) == Resolve(base, st, k)
    ensures forall k :: Resolve(base, r.1, k).Some? <==> Resolve(base, st, k).Some? || k == id
    ensures |r.1.ids| <= |st.ids| + 1
  {
    match Resolve(base, st, id)
    case Some(i) => (i, st)
    case None =>
      var st2 := Allocation(st.ids + [(id, InternalNodeId(st.next))], st.next + 1);
      AllocateFresh(base, start, st, id);
      (InternalNodeId(st.next), st2)
  }

  /** Allocating a fresh index to an unknown id keeps the allocation well formed and every other answer. */
  lemma AllocateFresh<I(!new)>(base: SM.SMap<I, InternalNodeId>, start: nat, st: Allocation<I>, id: I)
    requires SM.Valid(base)
    requires AllocOk(base, start, st)
    requires Resolve(base, st, id).None?
    ensures AllocOk(base, start, Allocation(st.ids + [(id, InternalNodeId(st.next))], st.next + 1))
    ensures Resolve(base, Allocation(st.ids + [(id, InternalNodeId(st.next))], st.next + 1), id)
            == Some(InternalNodeId(st.next))
    ensures forall k :: k != id ==>
              Resolve(base, Allocation(st.ids + [(id, InternalNodeId(st.next))], st.next + 1), k)
              == Resolve(base, st, k)
  {
    var one := [(id, InternalNodeId(st.next))];
    var st2 := Allocation(st.ids + one, st.next + 1);
    assert KeysOf(one) == {id};
    AppendDistinct(st.ids, one);
    forall k
      ensures Assoc(st2.ids, k) == if k == id then Some(InternalNodeId(st.next)) else Assoc(st.ids, k)
    {
      AssocAppend(st.ids, one, k);
    }
  }

  /** Runs getOrAllocateInternalNodeId over a sequence of ids. */
  function AllocAll<I(==,!new)>(base: SM.SMap<I, InternalNodeId>, start: nat, st: Allocation<I>, ids: seq<I>)
    : (r: Allocation<I>)
    requires SM.Valid(base)
    requires AllocOk(base, start, st)
    ensures AllocOk(base, start, r)
    ensures forall k :: Resolve(base, st, k).Some? ==> Resolve(base, r, k) == Resolve(base, st, k)
    ensures forall k :: Resolve(base, r, k).Some? <==> Resolve(base, st, k).Some? || k in ids
    ensures |r.ids| <= |st.ids| + |ids|
    decreases |ids|
  {
    if |ids| == 0 then st
    else
      assert ids == [ids[0]] + ids[1..];
      AllocAll(base, start, GetOrAllocate(base, start, st, ids[0]).1, ids[1..])
  }

  /** Indices handed out by an allocation are below its next index, and distinct ids get distinct indices. */
  lemma ResolveInjective<I(!new)>(base: SM.SMap<I, InternalNodeId>, start: nat, st: Allocation<I>, k1: I, k2: I)
    requires SM.Valid(base)
    requires IndexBelow(base, start)
    requires Injective(base)
    requires AllocOk(base, start, st)
    requires Resolve(base, st, k1).Some?
    ensures Resolve(base, st, k1).value.id < st.next
    ensures Resolve(base, st, k1) == Resolve(base, st, k2) ==> k1 == k2
  {
    var r1 := Resolve(base, st, k1);
    if SM.Find(base, k1).None? {
      var j1 :| 0 <= j1 < |st.ids| && st.ids[j1] == (k1, r1.value);
    }
    if r1 == Resolve(base, st, k2) && SM.Find(base, k1).None? {
      var j1 :| 0 <= j1 < |st.ids| && st.ids[j1] == (k1, r1.value);
      if SM.Find(base, k2).None? {
        var j2 :| 0 <= j2 < |st.ids| && st.ids[j2] == (k2, r1.value);
        assert j1 == j2;
      }
    }
  }

  /** The j-th allocated id resolves to index start + j. */
  lemma ResolveFresh<I(!new)>(base: SM.SMap<I, InternalNodeId>, start: nat, st: Allocation<I>, j: nat)
    requires SM.Valid(base)
    requires AllocOk(base, start, st)
    requires j < |st.ids|
    ensures Resolve(base, st, st.ids[j].0) == Some(InternalNodeId(start + j))
  {
    assert st.ids[j] in st.ids;
    AssocUnique(st.ids, st.ids[j]);
  }

  // ---------------------------------------------------------------------
  // The records a graph is built or extended from

  /** The ids a record mentions: its own, and its edge targets unless it is terminal. */
  function RecordIds<I, N>(r: NodeRecord<I, N>): seq<I>
  {
    [r.id] + (if r.terminal then [] else r.neighbors)
  }

  /** Every id the records mention, declared or edge target. */
  ghost function IdSet<I, N>(recs: seq<NodeRecord<I, N>>): set<I>
  {
    set r, x | r in recs && x in RecordIds(r) :: x
  }

  /** The ids the records declare. */
  ghost function DeclaredSet<I, N>(recs: seq<NodeRecord<I, N>>): set<I>
  {
    set r | r in recs :: r.id
  }

  /** No id is declared twice. */
  ghost predicate DistinctIds<I, N>(recs: seq<NodeRecord<I, N>>)
  {
    forall i, j :: 0 <= i < j < |recs| ==> recs[i].id != recs[j].id
  }

  /** The ids the records mention, in order, with repetitions. */
  function AllIds<I(!new), N>(recs: seq<NodeRecord<I, N>>): (ids: seq<I>)
    ensures forall x :: x in ids <==> x in IdSet(recs)
  {
    if |recs| == 0 then []
    else
      var n := |recs| - 1;
      var ids := AllIds(recs[..n]) + RecordIds(recs[n]);
      assert forall x :: x in IdSet(recs) <==> x in IdSet(recs[..n]) || x in RecordIds(recs[n]) by {
        assert recs == recs[..n] + [recs[n]];
        forall x | x in IdSet(recs)
          ensures x in IdSet(recs[..n]) || x in RecordIds(recs[n])
        {
          var r :| r in recs && x in RecordIds(r);
          if r != recs[n] {
            assert r in recs[..n];
          }
        }
      }
      ids
  }

  // ---------------------------------------------------------------------
  // Pass 2: node data and edge runs

  /**
   * The run at `offset` lists the internal ids the map gives to `targets`,
   * in order.
   */
  ghost predicate RunMatches<I(!new)>(m: SM.SMap<I, InternalNodeId>, targets: seq<I>, edgesStorage: seq<InternalNodeId>, offset: nat)
    requires SM.Valid(m)
  {
    && offset + |targets| <= |edgesStorage|
    && forall j :: 0 <= j < |targets| ==> SM.Find(m, targets[j]) == Some(edgesStorage[offset + j])
  }

  /** A run stays in place when the store grows at its end. */
  lemma RunMatchesKept<I(!new)>(m: SM.SMap<I, InternalNodeId>, targets: seq<I>, edgesStorage: seq<InternalNodeId>, e2: seq<InternalNodeId>, offset: nat)
    requires SM.Valid(m)
    requires RunMatches(m, targets, edgesStorage, offset)
    requires edgesStorage <= e2
    ensures RunMatches(m, targets, e2, offset)
  {
    forall j | 0 <= j < |targets|
      ensures SM.Find(m, targets[j]) == Some(e2[offset + j])
    {
      assert e2[offset + j] == edgesStorage[offset + j];
    }
  }

  /** A translated run appended at the end of the store matches its targets there. */
  lemma RunMatchesAppended<I(!new)>(m: SM.SMap<I, InternalNodeId>, targets: seq<I>, edgesStorage: seq<InternalNodeId>, run: seq<InternalNodeId>)
    requires SM.Valid(m)
    requires |run| == |targets|
    requires forall j :: 0 <= j < |targets| ==> SM.Find(m, targets[j]) == Some(run[j])
    ensures RunMatches(m, targets, edgesStorage + run, |edgesStorage|)
  {
    var e2 := edgesStorage + run;
    forall j | 0 <= j < |targets|
      ensures SM.Find(m, targets[j]) == Some(e2[|edgesStorage| + j])
    {
      assert e2[|edgesStorage| + j] == run[j];
    }
  }

  /**
   * What storing a record establishes: the node of its id has the record's
   * value and is terminal when the record is; otherwise its run starts at
   * its slot's offset and lists the indices of the record's edge targets,
   * in declaration order.
   */
  ghost predicate NodeHolds<I(!new), N>(m: SM.SMap<I, InternalNodeId>, d: NodeData<N>, edgesStorage: seq<InternalNodeId>, r: NodeRecord<I, N>)
    requires SM.Valid(m)
  {
    && d.node == r.value
    && if r.terminal then d.slot.Terminal?
       else d.slot.Edges? && RunMatches(m, r.neighbors, edgesStorage, d.slot.offset)
  }

  /** The record's facts hold in the graph. */
  ghost predicate Holds<I(!new), N(!new)>(g: Graph<I, N>, r: NodeRecord<I, N>)
    requires Valid(g)
  {
    && Known(g, r.id)
    && NodeHolds(g.nodeIndexMap, g.nodes[IndexOf(g, r.id)], g.edgesStorage, r)
  }

  /** The internal ids of known ids, in order (the translation of a record's edge targets). */
  function Translate<I(==,!new), N(!new)>(g: Graph<I, N>, ids: seq<I>): (r: seq<InternalNodeId>)
    requires Valid(g)
    requires forall x :: x in ids ==> Known(g, x)
    ensures |r| == |ids|
    ensures forall j :: 0 <= j < |ids| ==> SM.Find(g.nodeIndexMap, ids[j]) == Some(r[j])
    ensures forall j :: 0 <= j < |r| ==> r[j].id < |g.nodes|
  {
    if |ids| == 0 then []
    else
      var rest := Translate(g, ids[1..]);
      assert forall j :: 1 <= j < |ids| ==> ids[j] == ids[1..][j - 1];
      [InternalNodeId(At(g, ids[0]))] + rest
  }

  /**
   * Stores one record: the node of its id gets its value and becomes
   * terminal, or gets a run appended at the end of the edge store.
   */
  function FillOne<I(==,!new), N(!new)>(g: Graph<I, N>, r: NodeRecord<I, N>): (g2: Graph<I, N>)
    requires Valid(g)
    requires forall x :: x in RecordIds(r) ==> Known(g, x)
    ensures Valid(g2)
    ensures g2.nodeIndexMap == g.nodeIndexMap
    ensures |g2.nodes| == |g.nodes|
    ensures g.edgesStorage <= g2.edgesStorage
    ensures Holds(g2, r)
    ensures forall j :: 0 <= j < |g.nodes| && j != IndexOf(g, r.id) ==> g2.nodes[j] == g.nodes[j]
  {
    assert r.id in RecordIds(r);
    var i := At(g, r.id);
    if r.terminal then
      TerminalStored(g, r, i);
      g.(nodes := g.nodes[i := NodeData(r.value, Terminal)])
    else
      assert forall x :: x in r.neighbors ==> x in RecordIds(r);
      var run := Translate(g, r.neighbors);
      RunStored(g, r, i, run);
      g.(nodes := g.nodes[i := NodeData(r.value, Edges(|g.edgesStorage|))], edgesStorage := g.edgesStorage + run)
  }

  /** Storing a terminal record at its node keeps the graph valid and makes the record hold. */
  lemma TerminalStored<I(!new), N(!new)>(g: Graph<I, N>, r: NodeRecord<I, N>, i: nat)
    requires Valid(g)
    requires Known(g, r.id) && i == IndexOf(g, r.id)
    requires r.terminal
    ensures Valid(g.(nodes := g.nodes[i := NodeData(r.value, Terminal)]))
    ensures Holds(g.(nodes := g.nodes[i := NodeData(r.value, Terminal)]), r)
  {
    var d := NodeData(r.value, Terminal);
    StoreOkUpdate(g.nodes, g.edgesStorage, i, d);
    var g2 := g.(nodes := g.nodes[i := d]);
    assert IndexOf(g2, r.id) == i && g2.nodes[i] == d;
  }

  /**
   * Appending the translated edge targets of a non-terminal record, and
   * pointing its node at them, keeps the graph valid and makes the record hold.
   */
  lemma RunStored<I(!new), N(!new)>(g: Graph<I, N>, r: NodeRecord<I, N>, i: nat, run: seq<InternalNodeId>)
    requires Valid(g)
    requires Known(g, r.id) && i == IndexOf(g, r.id)
    requires !r.terminal
    requires |run| == |r.neighbors|
    requires forall j :: 0 <= j < |r.neighbors| ==> SM.Find(g.nodeIndexMap, r.neighbors[j]) == Some(run[j])
    requires forall j :: 0 <= j < |run| ==> run[j].id < |g.nodes|
    ensures Valid(g.(nodes := g.nodes[i := NodeData(r.value, Edges(|g.edgesStorage|))], edgesStorage := g.edgesStorage + run))
    ensures Holds(g.(nodes := g.nodes[i := NodeData(r.value, Edges(|g.edgesStorage|))], edgesStorage := g.edgesStorage + run), r)
  {
    var d := NodeData(r.value, Edges(|g.edgesStorage|));
    StoreOkAppend(g.nodes, g.edgesStorage, i, d, run);
    RunMatchesAppended(g.nodeIndexMap, r.neighbors, g.edgesStorage, run);
    var g2 := g.(nodes := g.nodes[i := d], edgesStorage := g.edgesStorage + run);
    assert IndexOf(g2, r.id) == i && g2.nodes[i] == d;
  }

  /** A record's facts survive a step that keeps its node and only appends to the edge store. */
  lemma HoldsKept<I(!new), N(!new)>(g: Graph<I, N>, g2: Graph<I, N>, r: NodeRecord<I, N>)
    requires Valid(g) && Valid(g2)
    requires g2.nodeIndexMap == g.nodeIndexMap
    requires |g2.nodes| == |g.nodes|
    requires g.edgesStorage <= g2.edgesStorage
    requires Holds(g, r)
    requires g2.nodes[IndexOf(g, r.id)] == g.nodes[IndexOf(g, r.id)]
    ensures Holds(g2, r)
  {
    var d := g.nodes[IndexOf(g, r.id)];
    if !r.terminal {
      RunMatchesKept(g.nodeIndexMap, r.neighbors, g.edgesStorage, g2.edgesStorage, d.slot.offset);
    }
  }

  /** Stores the records in order; a later record for the same id wins (see FillFacts). */
  function Fill<I(==,!new), N(!new)>(g: Graph<I, N>, recs: seq<NodeRecord<I, N>>): (g2: Graph<I, N>)
    requires Valid(g)
    requires forall x :: x in IdSet(recs) ==> Known(g, x)
    ensures Valid(g2)
    ensures g2.nodeIndexMap == g.nodeIndexMap
    ensures |g2.nodes| == |g.nodes|
    decreases |recs|
  {
    if |recs| == 0 then g
    else
      var n := |recs| - 1;
      IdSetSnoc(recs);
      var g1 := Fill(g, recs[..n]);
      assert forall x :: x in RecordIds(recs[n]) ==> Known(g1, x) by {
        forall x | x in RecordIds(recs[n])
          ensures Known(g1, x)
        {
          assert Known(g, x);
        }
      }
      FillOne(g1, recs[n])
  }

  /** Every one of the records holds in g. */
  ghost predicate AllHold<I(!new), N(!new)>(g: Graph<I, N>, recs: seq<NodeRecord<I, N>>)
    requires Valid(g)
  {
    forall r :: r in recs ==> Holds(g, r)
  }

  /**
   * What pass 2 does: nodes without a record are unchanged, declared nodes
   * stop being placeholders, the edge store only grows, and with one record
   * per id each record holds.
   */
  lemma {:induction false} FillFacts<I(!new), N(!new)>(g: Graph<I, N>, recs: seq<NodeRecord<I, N>>)
    requires Valid(g)
    requires forall x :: x in IdSet(recs) ==> Known(g, x)
    ensures Filled(g, recs, Fill(g, recs))
    ensures DistinctIds(recs) ==> AllHold(Fill(g, recs), recs)
    decreases |recs|
  {
    if |recs| > 0 {
      IdSetSnoc(recs);
      FillFacts(g, recs[..|recs| - 1]);
      FillFactsStep(g, recs);
    }
  }

  /** FillFacts for all records, from FillFacts for all but the last. */
  lemma FillFactsStep<I(!new), N(!new)>(g: Graph<I, N>, recs: seq<NodeRecord<I, N>>)
    requires Valid(g)
    requires |recs| > 0
    requires forall x :: x in IdSet(recs) ==> Known(g, x)
    requires forall x :: x in IdSet(recs[..|recs| - 1]) ==> Known(g, x)
    requires Filled(g, recs[..|recs| - 1], Fill(g, recs[..|recs| - 1]))
    requires DistinctIds(recs[..|recs| - 1]) ==> AllHold(Fill(g, recs[..|recs| - 1]), recs[..|recs| - 1])
    ensures Filled(g, recs, Fill(g, recs))
    ensures DistinctIds(recs) ==> AllHold(Fill(g, recs), recs)
  {
    var n := |recs| - 1;
    var g1 := Fill(g, recs[..n]);
    FillStep(g, recs, g1);
    assert Fill(g, recs) == FillOne(g1, recs[n]);
  }

  /** The inductive step of Fill: storing the last record on top of the others. */
  lemma FillStep<I(!new), N(!new)>(g: Graph<I, N>, recs: seq<NodeRecord<I, N>>, g1: Graph<I, N>)
    requires Valid(g) && Valid(g1)
    requires |recs| > 0
    requires forall x :: x in IdSet(recs) ==> Known(g, x)
    requires Filled(g, recs[..|recs| - 1], g1)
    requires DistinctIds(recs[..|recs| - 1]) ==> AllHold(g1, recs[..|recs| - 1])
    ensures forall x :: x in RecordIds(recs[|recs| - 1]) ==> Known(g1, x)
    ensures Valid(FillOne(g1, recs[|recs| - 1]))
    ensures Filled(g, recs, FillOne(g1, recs[|recs| - 1]))
    ensures DistinctIds(recs) ==> AllHold(FillOne(g1, recs[|recs| - 1]), recs)
  {
    var n := |recs| - 1;
    var last := recs[n];
    IdSetSnoc(recs);
    forall x | x in RecordIds(last)
      ensures Known(g1, x)
    {
      assert Known(g, x);
    }
    var g2 := FillOne(g1, last);
    assert last.id in RecordIds(last);
    OthersKept(g1, g2, last.id);
    forall k | Known(g, k) && k !in DeclaredSet(recs)
      ensures g2.nodes[IndexOf(g, k)] == g.nodes[IndexOf(g, k)]
    {
      assert IndexOf(g1, k) == IndexOf(g, k);
    }
    forall k | Known(g, k) && k in DeclaredSet(recs)
      ensures !g2.nodes[IndexOf(g, k)].slot.Placeholder?
    {
      assert IndexOf(g1, k) == IndexOf(g, k) && IndexOf(g2, k) == IndexOf(g, k);
    }
    if DistinctIds(recs) {
      FillStepHolds(recs, g1, g2);
    }
  }

  /** The ids of all records but the last, and of the last one, are among the records' ids. */
  lemma IdSetSnoc<I, N>(recs: seq<NodeRecord<I, N>>)
    requires |recs| > 0
    ensures IdSet(recs[..|recs| - 1]) <= IdSet(recs)
    ensures forall x :: x in RecordIds(recs[|recs| - 1]) ==> x in IdSet(recs)
    ensures DeclaredSet(recs) == DeclaredSet(recs[..|recs| - 1]) + {recs[|recs| - 1].id}
  {
    var n := |recs| - 1;
    assert recs == recs[..n] + [recs[n]];
    forall x | x in IdSet(recs[..n])
      ensures x in IdSet(recs)
    {
      var r :| r in recs[..n] && x in RecordIds(r);
      assert r in recs;
    }
    assert recs[n] in recs;
    forall x | x in DeclaredSet(recs)
      ensures x in DeclaredSet(recs[..n]) + {recs[n].id}
    {
      var r :| r in recs && r.id == x;
      if r != recs[n] {
        assert r in recs[..n];
      }
    }
  }

  /** When only the node of id changed, every other known id still has its node. */
  lemma OthersKept<I(!new), N(!new)>(g1: Graph<I, N>, g2: Graph<I, N>, id: I)
    requires Valid(g1)
    requires Known(g1, id)
    requires |g2.nodes| == |g1.nodes|
    requires forall j :: 0 <= j < |g1.nodes| && j != IndexOf(g1, id) ==> g2.nodes[j] == g1.nodes[j]
    ensures forall k :: Known(g1, k) && k != id ==> g2.nodes[IndexOf(g1, k)] == g1.nodes[IndexOf(g1, k)]
  {
    forall k | Known(g1, k) && k != id
      ensures g2.nodes[IndexOf(g1, k)] == g1.nodes[IndexOf(g1, k)]
    {
      assert IndexOf(g1, k) != IndexOf(g1, id);
    }
  }

  /** With one record per id, storing the last record keeps the earlier ones holding. */
  lemma FillStepHolds<I(!new), N(!new)>(recs: seq<NodeRecord<I, N>>, g1: Graph<I, N>, g2: Graph<I, N>)
    requires Valid(g1) && Valid(g2)
    requires |recs| > 0
    requires DistinctIds(recs)
    requires g2.nodeIndexMap == g1.nodeIndexMap && |g2.nodes| == |g1.nodes|
    requires g1.edgesStorage <= g2.edgesStorage
    requires forall r :: r in recs[..|recs| - 1] ==> Holds(g1, r)
    requires Holds(g2, recs[|recs| - 1])
    requires forall k :: Known(g1, k) && k != recs[|recs| - 1].id ==> g2.nodes[IndexOf(g1, k)] == g1.nodes[IndexOf(g1, k)]
    ensures forall r :: r in recs ==> Holds(g2, r)
  {
    var n := |recs| - 1;
    forall r | r in recs
      ensures Holds(g2, r)
    {
      if r != recs[n] {
        var i :| 0 <= i < |recs| && recs[i] == r;
        assert i < n && r in recs[..n];
        HoldsKept(g1, g2, r);
      }
    }
  }

  // ---------------------------------------------------------------------
  // Construction

  /** n nodes that exist only as edge targets so far, holding a default node value. */
  function Placeholders<N>(blank: N, n: nat): (ps: seq<NodeData<N>>)
    ensures |ps| == n
    ensures forall i :: 0 <= i < n ==> ps[i] == NodeData(blank, Placeholder)
  {
    seq(n, _ => NodeData(blank, Placeholder))
  }

  /**
   * The graph with no nodes: an empty index map of two buckets and an edge
   * store holding only its unused first element.
   */
  function EmptyGraph<I(==,!new), N(!new)>(keyHash: I -> Word, a: Word): (g: Graph<I, N>)
    ensures Valid(g)
    ensures |g.nodes| == 0
    ensures forall k :: !Known(g, k)
  {
    Graph(SM.Empty(keyHash, a, 1), 0, [], [InternalNodeId(0)])
  }

  /**
   * A map that answers every lookup as the base map does for the ids it
   * knows and as the allocation does for the others.
   */
  lemma FindIsResolve<I(!new)>(base: SM.SMap<I, InternalNodeId>, start: nat, st: Allocation<I>, m: SM.SMap<I, InternalNodeId>)
    requires SM.Valid(base) && SM.Valid(m)
    requires AllocOk(base, start, st)
    requires forall k :: k in SM.Keys(base) ==> SM.Find(m, k) == SM.Find(base, k)
    requires forall p :: p in st.ids ==> SM.Find(m, p.0) == Some(p.1)
    requires forall k :: k !in KeysOf(st.ids) ==> SM.Find(m, k) == SM.Find(base, k)
    ensures forall k :: SM.Find(m, k) == Resolve(base, st, k)
  {
    forall k
      ensures SM.Find(m, k) == Resolve(base, st, k)
    {
      if k in KeysOf(st.ids) {
        var p :| p in st.ids && p.0 == k;
        AssocUnique(st.ids, p);
      }
    }
  }

  /**
   * The index map after pass 1: it answers as the base map for the ids the
   * base knows and as the allocation for the others, so it sends the known
   * ids one-to-one onto the indices below the allocation's next index.
   */
  lemma GrownIndexOk<I(!new)>(base: SM.SMap<I, InternalNodeId>, start: nat, st: Allocation<I>, m: SM.SMap<I, InternalNodeId>)
    requires IndexOk(base, start)
    requires AllocOk(base, start, st)
    requires SM.Valid(m)
    requires forall k :: SM.Find(m, k) == Resolve(base, st, k)
    ensures IndexOk(m, st.next)
  {
    forall k | SM.Find(m, k).Some?
      ensures SM.Find(m, k).value.id < st.next
    {
      ResolveInjective(base, start, st, k, k);
    }
    forall k1, k2 | SM.Find(m, k1).Some? && SM.Find(m, k1) == SM.Find(m, k2)
      ensures k1 == k2
    {
      ResolveInjective(base, start, st, k1, k2);
    }
    forall i | 0 <= i < st.next
      ensures Owned(m, i)
    {
      GrownOwned(base, start, st, m, i);
    }
  }

  /** Every index below the allocation's next one belongs to some id of the grown map. */
  lemma GrownOwned<I(!new)>(base: SM.SMap<I, InternalNodeId>, start: nat, st: Allocation<I>, m: SM.SMap<I, InternalNodeId>, i: nat)
    requires IndexOk(base, start)
    requires AllocOk(base, start, st)
    requires SM.Valid(m)
    requires forall k :: SM.Find(m, k) == Resolve(base, st, k)
    requires i < st.next
    ensures Owned(m, i)
  {
    if i < start {
      assert Owned(base, i);
      var k :| SM.Find(base, k) == Some(InternalNodeId(i));
      assert SM.Find(m, k) == Some(InternalNodeId(i));
    } else {
      ResolveFresh(base, start, st, i - start);
      assert SM.Find(m, st.ids[i - start].0) == Some(InternalNodeId(i));
    }
  }

  /**
   * The graph after pass 1: the ids the allocation added get the next
   * indices, as placeholder nodes after the base graph's nodes; the edge
   * store is the base graph's.
   */
  lemma GrownValid<I(!new), N(!new)>(x: Graph<I, N>, st: Allocation<I>, m: SM.SMap<I, InternalNodeId>, blank: N)
    requires Valid(x)
    requires AllocOk(x.nodeIndexMap, |x.nodes|, st)
    requires SM.Valid(m)
    requires forall k :: SM.Find(m, k) == Resolve(x.nodeIndexMap, st, k)
    ensures Valid(Graph(m, st.next, x.nodes + Placeholders(blank, |st.ids|), x.edgesStorage))
  {
    var nodes := x.nodes + Placeholders(blank, |st.ids|);
    GrownIndexOk(x.nodeIndexMap, |x.nodes|, st, m);
    forall i | 0 <= i < |nodes|
      ensures SlotOk(nodes[i].slot, |x.edgesStorage|)
    {
      if i < |x.nodes| {
        assert nodes[i] == x.nodes[i];
      }
    }
  }

  /** The nodes a graph declares keep being declared, and the others stay placeholders, through Fill. */
  lemma FillDeclared<I(!new), N(!new)>(g0: Graph<I, N>, g: Graph<I, N>, recs: seq<NodeRecord<I, N>>, k: I)
    requires Valid(g0) && Valid(g)
    requires g.nodeIndexMap == g0.nodeIndexMap && |g.nodes| == |g0.nodes|
    requires Known(g0, k) && k !in DeclaredSet(recs) ==> g.nodes[IndexOf(g0, k)] == g0.nodes[IndexOf(g0, k)]
    requires Known(g0, k) && k in DeclaredSet(recs) ==> !g.nodes[IndexOf(g0, k)].slot.Placeholder?
    ensures Declared(g, k) <==> Declared(g0, k) || (Known(g0, k) && k in DeclaredSet(recs))
  {
  }

  /**
   * getOrAllocateInternalNodeId over every id the records mention, on top
   * of the ids x knows: afterwards exactly those ids and the mentioned ones
   * have an index.
   */
  function AllocRecords<I(==,!new), N(!new)>(x: Graph<I, N>, recs: seq<NodeRecord<I, N>>): (st: Allocation<I>)
    requires Valid(x)
    ensures AllocOk(x.nodeIndexMap, |x.nodes|, st)
    ensures forall k :: Resolve(x.nodeIndexMap, st, k).Some? <==> Known(x, k) || k in IdSet(recs)
    ensures |st.ids| <= |AllIds(recs)|
  {
    AllocAll(x.nodeIndexMap, |x.nodes|, Allocation([], |x.nodes|), AllIds(recs))
  }

  /**
   * Pass 1 in general: a map that keeps x's answers and adds the
   * allocation's turns x into a valid graph with the new ids as
   * placeholders past x's nodes.
   */
  lemma PassOne<I(!new), N(!new)>(x: Graph<I, N>, recs: seq<NodeRecord<I, N>>, st: Allocation<I>, m: SM.SMap<I, InternalNodeId>, blank: N)
    requires Valid(x)
    requires AllocOk(x.nodeIndexMap, |x.nodes|, st)
    requires forall k :: Resolve(x.nodeIndexMap, st, k).Some? <==> Known(x, k) || k in IdSet(recs)
    requires SM.Valid(m)
    requires forall k :: k in SM.Keys(x.nodeIndexMap) ==> SM.Find(m, k) == SM.Find(x.nodeIndexMap, k)
    requires forall p :: p in st.ids ==> SM.Find(m, p.0) == Some(p.1)
    requires forall k :: k !in KeysOf(st.ids) ==> SM.Find(m, k) == SM.Find(x.nodeIndexMap, k)
    ensures Valid(Graph(m, st.next, x.nodes + Placeholders(blank, |st.ids|), x.edgesStorage))
    ensures ExtendedIndex(x, recs, Graph(m, st.next, x.nodes + Placeholders(blank, |st.ids|), x.edgesStorage))
  {
    FindIsResolve(x.nodeIndexMap, |x.nodes|, st, m);
    GrownValid(x, st, m, blank);
  }

  /**
   * Pass 1 of the constructor from records: every id the records mention
   * gets a dense index, in order of first mention, and a placeholder node.
   */
  function BuildIndex<I(==,!new), N(!new)>(keyHash: I -> Word, a: Word, blank: N, recs: seq<NodeRecord<I, N>>): (g0: Graph<I, N>)
    requires |AllIds(recs)| < Modulus
    ensures Valid(g0)
    ensures forall k :: Known(g0, k) <==> k in IdSet(recs)
    ensures forall i :: 0 <= i < |g0.nodes| ==> g0.nodes[i].slot.Placeholder?
    ensures g0.edgesStorage == [InternalNodeId(0)]
  {
    var x: Graph<I, N> := EmptyGraph(keyHash, a);
    var st := AllocRecords(x, recs);
    var m := SM.Build(keyHash, a, st.ids);
    PassOne(x, recs, st, m, blank);
    Graph(m, st.next, x.nodes + Placeholders(blank, |st.ids|), x.edgesStorage)
  }

  /**
   * The constructor from a range of records (the graph's own node
   * declarations): pass 1 gives every mentioned id a dense index and builds
   * the index map from them; pass 2 stores each record's value and edges.
   * Every mentioned id is known afterwards, exactly the declared ones are
   * not placeholders, and with one record per id each record holds.
   */
  function Build<I(==,!new), N(!new)>(keyHash: I -> Word, a: Word, blank: N, recs: seq<NodeRecord<I, N>>): (g: Graph<I, N>)
    requires |AllIds(recs)| < Modulus
    ensures Valid(g)
    ensures forall k :: Known(g, k) <==> k in IdSet(recs)
    ensures forall k :: Declared(g, k) <==> k in DeclaredSet(recs)
    ensures DistinctIds(recs) ==> forall r :: r in recs ==> Holds(g, r)
  {
    var g0 := BuildIndex(keyHash, a, blank, recs);
    var g := Fill(g0, recs);
    FillFacts(g0, recs);
    BuildFacts(recs, g0, g);
    g
  }

  /** What Build establishes, from the facts of its two passes. */
  lemma BuildFacts<I(!new), N(!new)>(recs: seq<NodeRecord<I, N>>, g0: Graph<I, N>, g: Graph<I, N>)
    requires Valid(g0) && Valid(g)
    requires forall k :: Known(g0, k) <==> k in IdSet(recs)
    requires forall i :: 0 <= i < |g0.nodes| ==> g0.nodes[i].slot.Placeholder?
    requires Filled(g0, recs, g)
    ensures forall k :: Known(g, k) <==> k in IdSet(recs)
    ensures forall k :: Declared(g, k) <==> k in DeclaredSet(recs)
  {
    forall k
      ensures Declared(g, k) <==> k in DeclaredSet(recs)
    {
      FillDeclared(g0, g, recs, k);
      if k in DeclaredSet(recs) {
        var r :| r in recs && r.id == k;
        assert k in RecordIds(r);
      }
    }
  }

  /**
   * What pass 2 leaves of the graph g0 it fills: the same index map and
   * nodes, an edge store that extends g0's, the nodes without a record
   * unchanged and the nodes with one no longer placeholders.
   */
  ghost predicate Filled<I(!new), N(!new)>(g0: Graph<I, N>, recs: seq<NodeRecord<I, N>>, g: Graph<I, N>)
    requires Valid(g0) && Valid(g)
  {
    && g.nodeIndexMap == g0.nodeIndexMap
    && |g.nodes| == |g0.nodes|
    && g0.edgesStorage <= g.edgesStorage
    && (forall k :: Known(g0, k) && k !in DeclaredSet(recs) ==> g.nodes[IndexOf(g0, k)] == g0.nodes[IndexOf(g0, k)])
    && (forall k :: Known(g0, k) && k in DeclaredSet(recs) ==> !g.nodes[IndexOf(g0, k)].slot.Placeholder?)
  }

  /**
   * What pass 1 of an extension makes of x: the ids x knows keep their
   * indices and nodes, the other mentioned ids become placeholders past
   * x's nodes, and the edge store is x's.
   */
  ghost predicate ExtendedIndex<I(!new), N(!new)>(x: Graph<I, N>, recs: seq<NodeRecord<I, N>>, g0: Graph<I, N>)
    requires Valid(x) && Valid(g0)
  {
    && (forall k :: Known(x, k) ==> SM.Find(g0.nodeIndexMap, k) == SM.Find(x.nodeIndexMap, k))
    && (forall k :: Known(g0, k) <==> Known(x, k) || k in IdSet(recs))
    && |x.nodes| <= |g0.nodes|
    && (forall i :: 0 <= i < |x.nodes| ==> g0.nodes[i] == x.nodes[i])
    && (forall i :: |x.nodes| <= i < |g0.nodes| ==> g0.nodes[i].slot.Placeholder?)
    && g0.edgesStorage == x.edgesStorage
  }

  /**
   * Pass 1 of the constructor from a graph: the ids x knows keep their
   * indices and nodes; every other id the records mention gets the next
   * index and a placeholder node; the edge store is x's.
   */
  function ExtendIndex<I(==,!new), N(!new)>(x: Graph<I, N>, recs: seq<NodeRecord<I, N>>, blank: N): (g0: Graph<I, N>)
    requires Valid(x)
    ensures Valid(g0)
    ensures forall k :: Known(x, k) ==> SM.Find(g0.nodeIndexMap, k) == SM.Find(x.nodeIndexMap, k)
    ensures forall k :: Known(g0, k) <==> Known(x, k) || k in IdSet(recs)
    ensures |x.nodes| <= |g0.nodes|
    ensures forall i :: 0 <= i < |x.nodes| ==> g0.nodes[i] == x.nodes[i]
    ensures forall i :: |x.nodes| <= i < |g0.nodes| ==> g0.nodes[i].slot.Placeholder?
    ensures g0.edgesStorage == x.edgesStorage
  {
    var st := AllocRecords(x, recs);
    var m := SM.Extend(x.nodeIndexMap, st.ids);
    PassOne(x, recs, st, m, blank);
    Graph(m, st.next, x.nodes + Placeholders(blank, |st.ids|), x.edgesStorage)
  }

  /**
   * The constructor from a graph and further records: the records' ids
   * must not be declared in x already (they may be edge targets there).
   * The ids x knows keep their indices and the nodes x declares keep their
   * data and edges; the new ids get the next indices; the records are
   * stored as in Build.
   */
  function Extend<I(==,!new), N(!new)>(x: Graph<I, N>, recs: seq<NodeRecord<I, N>>, blank: N): (g: Graph<I, N>)
    requires Valid(x)
    requires forall r :: r in recs ==> !Declared(x, r.id)
    ensures Valid(g)
    ensures forall k :: Known(g, k) <==> Known(x, k) || k in IdSet(recs)
    ensures forall k :: Known(x, k) ==> Find(g, k) == Find(x, k)
    ensures forall k :: Declared(g, k) <==> Declared(x, k) || k in DeclaredSet(recs)
    ensures forall k :: Declared(x, k) ==> g.nodes[Find(g, k)] == x.nodes[Find(x, k)]
    ensures x.edgesStorage <= g.edgesStorage
    ensures forall r :: Holds(x, r) && r.id !in DeclaredSet(recs) ==> Holds(g, r)
    ensures DistinctIds(recs) ==> forall r :: r in recs ==> Holds(g, r)
  {
    var g0 := ExtendIndex(x, recs, blank);
    var g := Fill(g0, recs);
    FillFacts(g0, recs);
    ExtendFacts(x, recs, g0, g);
    g
  }

  /** What Extend keeps of x and what it adds, from the facts of its two passes. */
  lemma ExtendFacts<I(!new), N(!new)>(x: Graph<I, N>, recs: seq<NodeRecord<I, N>>, g0: Graph<I, N>, g: Graph<I, N>)
    requires Valid(x) && Valid(g0) && Valid(g)
    requires forall r :: r in recs ==> !Declared(x, r.id)
    requires ExtendedIndex(x, recs, g0)
    requires Filled(g0, recs, g)
    ensures forall k :: Known(g, k) <==> Known(x, k) || k in IdSet(recs)
    ensures forall k :: Known(x, k) ==> Find(g, k) == Find(x, k)
    ensures forall k :: Declared(g, k) <==> Declared(x, k) || k in DeclaredSet(recs)
    ensures forall k :: Declared(x, k) ==> g.nodes[Find(g, k)] == x.nodes[Find(x, k)]
    ensures forall r :: Holds(x, r) && r.id !in DeclaredSet(recs) ==> Holds(g, r)
  {
    forall k
      ensures Declared(g, k) <==> Declared(x, k) || k in DeclaredSet(recs)
    {
      ExtendDeclared(x, recs, g0, g, k);
    }
    forall r | Holds(x, r) && r.id !in DeclaredSet(recs)
      ensures Holds(g, r)
    {
      HoldsCarried(x, g, r);
    }
  }

  /** One id's declared status after Extend. */
  lemma ExtendDeclared<I(!new), N(!new)>(x: Graph<I, N>, recs: seq<NodeRecord<I, N>>, g0: Graph<I, N>, g: Graph<I, N>, k: I)
    requires Valid(x) && Valid(g0) && Valid(g)
    requires forall r :: r in recs ==> !Declared(x, r.id)
    requires ExtendedIndex(x, recs, g0)
    requires Filled(g0, recs, g)
    ensures Declared(g, k) <==> Declared(x, k) || k in DeclaredSet(recs)
  {
    FillDeclared(g0, g, recs, k);
    if k in DeclaredSet(recs) {
      var r :| r in recs && r.id == k;
      assert k in RecordIds(r);
    } else if Known(x, k) {
      var i := IndexOf(x, k);
      assert IndexOf(g0, k) == i;
      assert g.nodes[i] == x.nodes[i];
    } else if Known(g0, k) {
      NewIdsAfter(x, g0, k);
    }
  }

  /** An id of the grown graph either is known to x or has an index past x's nodes. */
  lemma NewIdsAfter<I(!new), N(!new)>(x: Graph<I, N>, g0: Graph<I, N>, k: I)
    requires Valid(x) && Valid(g0)
    requires forall k :: Known(x, k) ==> SM.Find(g0.nodeIndexMap, k) == SM.Find(x.nodeIndexMap, k)
    requires Known(g0, k)
    ensures Known(x, k) || IndexOf(g0, k) >= |x.nodes|
  {
    var i := IndexOf(g0, k);
    if i < |x.nodes| {
      assert Owned(x.nodeIndexMap, i);
      var k2 :| SM.Find(x.nodeIndexMap, k2) == Some(InternalNodeId(i));
      assert SM.Find(g0.nodeIndexMap, k2) == SM.Find(g0.nodeIndexMap, k);
    }
  }

  /**
   * A record's facts carry over to a graph whose map gives every id x
   * knows the same index, whose node for the record is the same, and whose
   * edge store extends x's.
   */
  lemma HoldsCarried<I(!new), N(!new)>(x: Graph<I, N>, g: Graph<I, N>, r: NodeRecord<I, N>)
    requires Valid(x) && Valid(g)
    requires forall k :: Known(x, k) ==> SM.Find(g.nodeIndexMap, k) == SM.Find(x.nodeIndexMap, k)
    requires x.edgesStorage <= g.edgesStorage
    requires Holds(x, r)
    requires g.nodes[IndexOf(x, r.id)] == x.nodes[IndexOf(x, r.id)]
    ensures Holds(g, r)
  {
    var d := x.nodes[IndexOf(x, r.id)];
    assert IndexOf(g, r.id) == IndexOf(x, r.id);
    if !r.terminal {
      RunMatchesKept(x.nodeIndexMap, r.neighbors, x.edgesStorage, g.edgesStorage, d.slot.offset);
      RunMatchesRemapped(x.nodeIndexMap, g.nodeIndexMap, r.neighbors, g.edgesStorage, d.slot.offset);
    }
  }

  /** A run matches under any map that agrees on the ids the first map knows. */
  lemma RunMatchesRemapped<I(!new)>(m1: SM.SMap<I, InternalNodeId>, m2: SM.SMap<I, InternalNodeId>, targets: seq<I>, edgesStorage: seq<InternalNodeId>, offset: nat)
    requires SM.Valid(m1) && SM.Valid(m2)
    requires forall k :: SM.Find(m1, k).Some? ==> SM.Find(m2, k) == SM.Find(m1, k)
    requires RunMatches(m1, targets, edgesStorage, offset)
    ensures RunMatches(m2, targets, edgesStorage, offset)
  {
    forall j | 0 <= j < |targets|
      ensures SM.Find(m2, targets[j]) == Some(edgesStorage[offset + j])
    {
      assert SM.Find(m1, targets[j]).Some?;
    }
  }

  // ---------------------------------------------------------------------
  // What a client sees of a stored record

  /**
   * Through the public interface a stored record reads back as given: find
   * yields its node, whose value is the record's and which is terminal
   * exactly when the record is; otherwise the i-th edge from
   * neighborsBegin leads to the node of the record's i-th edge target.
   */
  lemma RecordReadsBack<I(!new), N(!new)>(g: Graph<I, N>, r: NodeRecord<I, N>)
    requires Valid(g)
    requires Holds(g, r)
    ensures Find(g, r.id) < |g.nodes|
    ensures GetNode(g, Find(g, r.id)) == r.value
    ensures IsTerminal(g, Find(g, r.id)) <==> r.terminal
    ensures !r.terminal ==> NeighborsReadBack(g, Find(g, r.id), r.neighbors)
  {
    var it := Find(g, r.id);
    if !r.terminal {
      var c := NeighborsBegin(g, it);
      forall j | 0 <= j < |r.neighbors|
        ensures TargetAt(g, c, j) == Find(g, r.neighbors[j])
      {
        assert SM.Find(g.nodeIndexMap, r.neighbors[j]) == Some(g.edgesStorage[c.pos + j]);
      }
    }
  }

  /** The node has a run, and its i-th edge leads to the node of the i-th of `targets`. */
  ghost predicate NeighborsReadBack<I(!new), N(!new)>(g: Graph<I, N>, it: nat, targets: seq<I>)
    requires Valid(g)
    requires it < |g.nodes|
  {
    && g.nodes[it].slot.Edges?
    && NeighborsBegin(g, it).pos + |targets| <= |g.edgesStorage|
    && forall j :: 0 <= j < |targets| ==> TargetAt(g, NeighborsBegin(g, it), j) == Find(g, targets[j])
  }

  /**
   * checkFullyConstructed on a freshly built graph passes exactly when
   * every id the records mention, edge targets included, is declared by
   * some record.
   */
  lemma BuildCheck<I(!new), N(!new)>(keyHash: I -> Word, a: Word, blank: N, recs: seq<NodeRecord<I, N>>)
    requires |AllIds(recs)| < Modulus
    ensures CheckFullyConstructed(Build(keyHash, a, blank, recs)) <==> IdSet(recs) <= DeclaredSet(recs)
  {
    var g := Build(keyHash, a, blank, recs);
    if IdSet(recs) <= DeclaredSet(recs) {
      assert forall k :: Known(g, k) ==> Declared(g, k);
    } else {
      var k :| k in IdSet(recs) && k !in DeclaredSet(recs);
      assert Known(g, k) && !Declared(g, k);
    }
  }

  /**
   * checkFullyConstructed on an extension of a fully constructed graph
   * passes exactly when every id the new records mention is declared by x
   * or by one of them.
   */
  lemma ExtendCheck<I(!new), N(!new)>(x: Graph<I, N>, recs: seq<NodeRecord<I, N>>, blank: N)
    requires Valid(x)
    requires forall r :: r in recs ==> !Declared(x, r.id)
    requires CheckFullyConstructed(x)
    ensures CheckFullyConstructed(Extend(x, recs, blank)) <==>
              forall k :: k in IdSet(recs) ==> Declared(x, k) || k in DeclaredSet(recs)
  {
    var g := Extend(x, recs, blank);
    if forall k :: k in IdSet(recs) ==> Declared(x, k) || k in DeclaredSet(recs) {
      forall k | Known(g, k)
        ensures Declared(g, k)
      {
        if Known(x, k) {
          assert Declared(x, k);
        }
      }
    } else {
      var k :| k in IdSet(recs) && !Declared(x, k) && k !in DeclaredSet(recs);
      assert Known(g, k) && !Declared(g, k);
    }
  }
}

=== FILE: semistatic_map.dfy ===
/**
 * A semistatic map: a hash map built once from a batch of pairs and then
 * extended cheaply by small disjoint batches. Entries live in one
 * append-only store; a lookup table gives, for every bucket, the half-open
 * range [lo, hi) of the store that holds exactly the keys hashing to it.
 * Extension never moves an existing entry: a bucket that receives new keys
 * gets a fresh range at the end of the store holding a copy of its old
 * entries followed by the new ones.
 */
module SemistaticMap {
  import opened Wrappers
  import opened Pairs
  import opened Hashing

  /** A half-open range [lo, hi) of the entry store. */
  datatype Range = Range(lo: nat, hi: nat)

  /**
   * `keyHash` stands for std::hash on keys; `hf` is the multiplicative hash
   * that turns its result into a bucket index.
   */
  datatype SMap<!K, +V> = SMap(
    keyHash: K -> Word,
    hf: HashFunction,
    table: seq<Range>,
    entries: seq<(K, V)>)

  /** The bucket a key belongs to: the private hash(key), below 2^(64 - shift). */
  function BucketOf<K, V>(m: SMap<K, V>, k: K): (b: nat)
    requires m.hf.shift < WordBits
    ensures b < Pow2(WordBits - m.hf.shift)
  {
    Hash(m.hf, m.keyHash(k))
  }

  /** Every bucket's range lies inside the entry store. */
  ghost predicate RangesOk<K, V>(m: SMap<K, V>)
  {
    forall h :: 0 <= h < |m.table| ==> m.table[h].lo <= m.table[h].hi <= |m.entries|
  }

  /** The entries of bucket h. */
  function Slice<K, V>(m: SMap<K, V>, h: nat): seq<(K, V)>
    requires RangesOk(m)
    requires h < |m.table|
  {
    m.entries[m.table[h].lo .. m.table[h].hi]
  }

  /** Bucket h holds only keys that hash to h, each once. */
  ghost predicate BucketOk<K(!new), V(!new)>(m: SMap<K, V>, h: nat)
    requires m.hf.shift < WordBits
    requires RangesOk(m)
    requires h < |m.table|
  {
    && (forall p :: p in Slice(m, h) ==> BucketOf(m, p.0) == h)
    && KeysDistinct(Slice(m, h))
  }

  /** The representation invariant of a (non-moved-from) semistatic map. */
  ghost predicate Valid<K(!new), V(!new)>(m: SMap<K, V>)
  {
    && 1 <= WordBits - m.hf.shift
    && m.hf.shift < WordBits
    && |m.table| == Pow2(WordBits - m.hf.shift)
    && RangesOk(m)
    && forall h :: 0 <= h < |m.table| ==> BucketOk(m, h)
  }

  /** The keys stored in the map: those in the range of some bucket. */
  ghost function Keys<K, V>(m: SMap<K, V>): set<K>
    requires RangesOk(m)
  {
    set h, p | 0 <= h < |m.table| && p in Slice(m, h) :: p.0
  }

  /** In a valid map a key is stored in the range of its own bucket, or nowhere. */
  lemma KeyInOwnBucket<K(!new), V(!new)>(m: SMap<K, V>, k: K)
    requires Valid(m)
    ensures BucketOf(m, k) < |m.table|
    ensures k in Keys(m) <==> k in KeysOf(Slice(m, BucketOf(m, k)))
  {
    var b := BucketOf(m, k);
    if k in Keys(m) {
      var h, p :| 0 <= h < |m.table| && p in Slice(m, h) && p.0 == k;
      assert BucketOk(m, h);
      assert p in Slice(m, b);
    }
    if k in KeysOf(Slice(m, b)) {
      var p :| p in Slice(m, b) && p.0 == k;
      assert k in Keys(m);
    }
  }

  /**
   * Linear scan of the entries at positions i until hi for key k: the
   * value stored with the first entry that has it, or None.
   */
  function Scan<K(==), V>(entries: seq<(K, V)>, k: K, i: nat, hi: nat): Option<V>
    requires i <= hi <= |entries|
    decreases hi - i
  {
    if i == hi then None
    else if entries[i].0 == k then Some(entries[i].1)
    else Scan(entries, k, i + 1, hi)
  }

  /** The scan of a range is the association-list lookup in that range. */
  lemma {:induction false} ScanIsAssoc<K(!new), V(!new)>(entries: seq<(K, V)>, k: K, i: nat, hi: nat)
    requires i <= hi <= |entries|
    ensures Scan(entries, k, i, hi) == Assoc(entries[i..hi], k)
    decreases hi - i
  {
    if i < hi {
      assert entries[i..hi][0] == entries[i];
      assert entries[i..hi][1..] == entries[i + 1..hi];
      ScanIsAssoc(entries, k, i + 1, hi);
    }
  }

  /**
   * The checked lookup: scan the range of the key's bucket. None (the null
   * pointer) exactly when the key is not stored; otherwise the value stored
   * with it.
   */
  function Find<K(==,!new), V(!new)>(m: SMap<K, V>, k: K): (r: Option<V>)
    requires Valid(m)
    ensures r.None? <==> k !in Keys(m)
    ensures r.Some? ==> (k, r.value) in m.entries
  {
    KeyInOwnBucket(m, k);
    var b := BucketOf(m, k);
    var r := Scan(m.entries, k, m.table[b].lo, m.table[b].hi);
    ScanIsAssoc(m.entries, k, m.table[b].lo, m.table[b].hi);
    assert r.Some? ==> (k, r.value) in m.entries by {
      if r.Some? {
        var s := Slice(m, b);
        var i :| 0 <= i < |s| && s[i] == (k, r.value);
        assert m.entries[m.table[b].lo + i] == s[i];
      }
    }
    r
  }

  /** Find is the association-list lookup in the key's bucket. */
  lemma FindIsAssoc<K(!new), V(!new)>(m: SMap<K, V>, k: K)
    requires Valid(m)
    ensures BucketOf(m, k) < |m.table|
    ensures Find(m, k) == Assoc(Slice(m, BucketOf(m, k)), k)
  {
    KeyInOwnBucket(m, k);
    var b := BucketOf(m, k);
    ScanIsAssoc(m.entries, k, m.table[b].lo, m.table[b].hi);
  }

  /** The unchecked lookup: the key must be stored; then it agrees with Find. */
  function At<K(==,!new), V(!new)>(m: SMap<K, V>, k: K): (v: V)
    requires Valid(m)
    requires k in Keys(m)
    ensures Find(m, k) == Some(v)
  {
    Find(m, k).value
  }

  /**
   * `m2` is `m` grown in place: the same hash function and table size, and
   * the old entry store is a prefix of the new one.
   */
  ghost predicate Shares<K, V>(m: SMap<K, V>, m2: SMap<K, V>)
  {
    && m2.keyHash == m.keyHash
    && m2.hf == m.hf
    && |m2.table| == |m.table|
    && m.entries <= m2.entries
  }

  lemma SharesTransitive<K(!new), V(!new)>(m1: SMap<K, V>, m2: SMap<K, V>, m3: SMap<K, V>)
    requires Shares(m1, m2) && Shares(m2, m3)
    ensures Shares(m1, m3)
  {
  }

  /** A map with 2^numBits empty buckets and no entries. */
  function Empty<K(==,!new), V(!new)>(keyHash: K -> Word, a: Word, numBits: nat): (m: SMap<K, V>)
    requires 1 <= numBits <= WordBits
    ensures Valid(m)
    ensures |m.table| == Pow2(numBits)
    ensures m.hf.shift == WordBits - numBits
    ensures Keys(m) == {}
    ensures forall k :: Find(m, k) == None
  {
    var m := SMap(keyHash, HashFunction(a, WordBits - numBits), seq(Pow2(numBits), _ => Range(0, 0)), []);
    assert forall h :: 0 <= h < |m.table| ==> Slice(m, h) == [];
    m
  }

  /** In a map that grew from `m`, an unchanged bucket range holds the same entries. */
  lemma SliceShared<K(!new), V(!new)>(m: SMap<K, V>, m2: SMap<K, V>, h: nat)
    requires RangesOk(m) && h < |m.table|
    requires m.entries <= m2.entries
    requires h < |m2.table| && m2.table[h] == m.table[h]
    ensures RangesOk(m2) ==> Slice(m2, h) == Slice(m, h)
  {
  }

  /** The map after appending a copy of bucket h's range followed by `elems`, and pointing bucket h there. */
  function Appended<K, V>(m: SMap<K, V>, h: nat, elems: seq<(K, V)>): SMap<K, V>
    requires RangesOk(m)
    requires h < |m.table|
  {
    var entries := m.entries + Slice(m, h) + elems;
    m.(table := m.table[h := Range(|m.entries|, |entries|)], entries := entries)
  }

  /** Appending keeps every range inside the store and moves no other bucket. */
  lemma AppendedLayout<K(!new), V(!new)>(m: SMap<K, V>, h: nat, elems: seq<(K, V)>)
    requires RangesOk(m)
    requires h < |m.table|
    ensures RangesOk(Appended(m, h, elems))
    ensures Shares(m, Appended(m, h, elems))
    ensures Slice(Appended(m, h, elems), h) == Slice(m, h) + elems
    ensures forall g :: 0 <= g < |m.table| && g != h ==> Appended(m, h, elems).table[g] == m.table[g]
    ensures forall g :: 0 <= g < |m.table| && g != h ==> Slice(Appended(m, h, elems), g) == Slice(m, g)
  {
    var m2 := Appended(m, h, elems);
    assert m2.entries[|m.entries|..|m2.entries|] == Slice(m, h) + elems;
    forall g | 0 <= g < |m.table| && g != h
      ensures Slice(m2, g) == Slice(m, g)
    {
      SliceShared(m, m2, g);
    }
  }

  /** The keys already in bucket h and the absent new keys are disjoint. */
  lemma BucketDisjoint<K(!new), V(!new)>(m: SMap<K, V>, h: nat, elems: seq<(K, V)>)
    requires RangesOk(m)
    requires h < |m.table|
    requires forall p :: p in elems ==> p.0 !in Keys(m)
    ensures KeysOf(Slice(m, h)) !! KeysOf(elems)
  {
    forall k | k in KeysOf(Slice(m, h))
      ensures k !in KeysOf(elems)
    {
      var p :| p in Slice(m, h) && p.0 == k;
      assert k in Keys(m);
    }
  }

  lemma AppendedValid<K(!new), V(!new)>(m: SMap<K, V>, h: nat, elems: seq<(K, V)>)
    requires Valid(m)
    requires h < |m.table|
    requires forall p :: p in elems ==> BucketOf(m, p.0) == h
    requires KeysDistinct(elems)
    requires forall p :: p in elems ==> p.0 !in Keys(m)
    ensures Valid(Appended(m, h, elems))
  {
    var m2 := Appended(m, h, elems);
    AppendedLayout(m, h, elems);
    BucketDisjoint(m, h, elems);
    assert BucketOk(m, h);
    AppendDistinct(Slice(m, h), elems);
    forall g | 0 <= g < |m2.table|
      ensures BucketOk(m2, g)
    {
      if g != h {
        assert BucketOk(m, g);
      }
    }
  }

  /**
   * insert(h, range): the keys of `elems` must all hash to h and be absent.
   * Afterwards bucket h's range holds its old entries followed by `elems`,
   * every other bucket is untouched and no earlier entry has moved.
   */
  function Insert<K(==,!new), V(!new)>(m: SMap<K, V>, h: nat, elems: seq<(K, V)>): (m2: SMap<K, V>)
    requires Valid(m)
    requires h < |m.table|
    requires forall p :: p in elems ==> BucketOf(m, p.0) == h
    requires KeysDistinct(elems)
    requires forall p :: p in elems ==> p.0 !in Keys(m)
    ensures Valid(m2)
    ensures Shares(m, m2)
    ensures Slice(m2, h) == Slice(m, h) + elems
    ensures forall g :: 0 <= g < |m.table| && g != h ==> m2.table[g] == m.table[g]
    ensures forall p :: p in elems ==> Find(m2, p.0) == Some(p.1)
    ensures forall k :: k !in KeysOf(elems) ==> Find(m2, k) == Find(m, k)
  {
    AppendedLayout(m, h, elems);
    AppendedValid(m, h, elems);
    InsertFinds(m, h, elems);
    Appended(m, h, elems)
  }

  /** After Insert a new key is found with its new value. */
  lemma InsertFindsNew<K(!new), V(!new)>(m: SMap<K, V>, h: nat, elems: seq<(K, V)>, p: (K, V))
    requires Valid(m)
    requires h < |m.table|
    requires forall p :: p in elems ==> BucketOf(m, p.0) == h
    requires KeysDistinct(elems)
    requires forall p :: p in elems ==> p.0 !in Keys(m)
    requires p in elems
    ensures Valid(Appended(m, h, elems))
    ensures Find(Appended(m, h, elems), p.0) == Some(p.1)
  {
    AppendedLayout(m, h, elems);
    AppendedValid(m, h, elems);
    BucketDisjoint(m, h, elems);
    FindIsAssoc(Appended(m, h, elems), p.0);
    assert p.0 !in KeysOf(Slice(m, h));
    AssocAppend(Slice(m, h), elems, p.0);
    AssocUnique(elems, p);
  }

  /** After Insert any other key is found as before. */
  lemma InsertFindsOld<K(!new), V(!new)>(m: SMap<K, V>, h: nat, elems: seq<(K, V)>, k: K)
    requires Valid(m)
    requires h < |m.table|
    requires forall p :: p in elems ==> BucketOf(m, p.0) == h
    requires KeysDistinct(elems)
    requires forall p :: p in elems ==> p.0 !in Keys(m)
    requires k !in KeysOf(elems)
    ensures Valid(Appended(m, h, elems))
    ensures Find(Appended(m, h, elems), k) == Find(m, k)
  {
    AppendedLayout(m, h, elems);
    AppendedValid(m, h, elems);
    FindIsAssoc(m, k);
    FindIsAssoc(Appended(m, h, elems), k);
    if BucketOf(m, k) == h {
      AssocAppend(Slice(m, h), elems, k);
    }
  }

  /** What the scan finds after Insert: the new values for the new keys, the old answer otherwise. */
  lemma InsertFinds<K(!new), V(!new)>(m: SMap<K, V>, h: nat, elems: seq<(K, V)>)
    requires Valid(m)
    requires h < |m.table|
    requires forall p :: p in elems ==> BucketOf(m, p.0) == h
    requires KeysDistinct(elems)
    requires forall p :: p in elems ==> p.0 !in Keys(m)
    ensures Valid(Appended(m, h, elems))
    ensures forall p :: p in elems ==> Find(Appended(m, h, elems), p.0) == Some(p.1)
    ensures forall k :: k !in KeysOf(elems) ==> Find(Appended(m, h, elems), k) == Find(m, k)
  {
    AppendedValid(m, h, elems);
    forall p | p in elems
      ensures Find(Appended(m, h, elems), p.0) == Some(p.1)
    {
      InsertFindsNew(m, h, elems, p);
    }
    forall k | k !in KeysOf(elems)
      ensures Find(Appended(m, h, elems), k) == Find(m, k)
    {
      InsertFindsOld(m, h, elems, k);
    }
  }

  /** Dropping the head of a list with distinct keys keeps them distinct, and the head's key is not in the tail. */
  lemma TailDistinct<K(!new), V(!new)>(s: seq<(K, V)>)
    requires |s| > 0
    requires KeysDistinct(s)
    ensures KeysDistinct(s[1..])
    ensures s[0].0 !in KeysOf(s[1..])
  {
    forall i, j | 0 <= i < j < |s[1..]|
      ensures s[1..][i].0 != s[1..][j].0
    {
      assert s[1..][i] == s[i + 1] && s[1..][j] == s[j + 1];
    }
  }

  /** The pairs of `s` whose bucket is (same) or is not (!same) h. */
  function Select<K(==,!new), V(!new)>(m: SMap<K, V>, s: seq<(K, V)>, h: nat, same: bool): (r: seq<(K, V)>)
    requires m.hf.shift < WordBits
    ensures forall p :: p in r <==> p in s && (BucketOf(m, p.0) == h) == same
    ensures KeysOf(r) <= KeysOf(s)
    ensures KeysDistinct(s) ==> KeysDistinct(r)
    ensures |r| <= |s|
    ensures |s| > 0 && (BucketOf(m, s[0].0) == h) != same ==> |r| < |s|
  {
    if |s| == 0 then []
    else
      var rest := Select(m, s[1..], h, same);
      assert s == [s[0]] + s[1..];
      assert KeysDistinct(s) ==> KeysDistinct(s[1..]) && s[0].0 !in KeysOf(s[1..]) by {
        if KeysDistinct(s) {
          TailDistinct(s);
        }
      }
      if (BucketOf(m, s[0].0) == h) == same then
        assert KeysDistinct(s) ==> KeysDistinct([s[0]] + rest) by {
          if KeysDistinct(s) {
            ConsDistinct(s[0], rest);
          }
        }
        [s[0]] + rest
      else
        rest
  }

  /**
   * Inserts a batch of absent, distinct keys by buckets: the pairs hashing
   * like the first one go in as one group, then the rest.
   */
  function InsertGroups<K(==,!new), V(!new)>(m: SMap<K, V>, elems: seq<(K, V)>): (m2: SMap<K, V>)
    requires Valid(m)
    requires KeysDistinct(elems)
    requires forall p :: p in elems ==> p.0 !in Keys(m)
    ensures Valid(m2)
    ensures Shares(m, m2)
    ensures forall p :: p in elems ==> Find(m2, p.0) == Some(p.1)
    ensures forall k :: k !in KeysOf(elems) ==> Find(m2, k) == Find(m, k)
    decreases |elems|
  {
    if |elems| == 0 then m
    else
      KeyInOwnBucket(m, elems[0].0);
      var h := BucketOf(m, elems[0].0);
      var group := Select(m, elems, h, true);
      var rest := Select(m, elems, h, false);
      var m1 := Insert(m, h, group);
      assert forall k :: BucketOf(m1, k) == BucketOf(m, k);
      assert forall p :: p in rest ==> p.0 !in Keys(m1) by {
        forall p | p in rest
          ensures p.0 !in Keys(m1)
        {
          assert Find(m1, p.0) == Find(m, p.0);
        }
      }
      var m2 := InsertGroups(m1, rest);
      assert forall p :: p in elems ==> Find(m2, p.0) == Some(p.1) by {
        forall p | p in elems
          ensures Find(m2, p.0) == Some(p.1)
        {
        }
      }
      m2
  }

  /**
   * The bulk constructor from `num_values` pairs with distinct keys. The
   * table has 2^PickNumBits(num_values) buckets; afterwards every input key
   * maps to the value paired with it and no other key is present.
   */
  function Build<K(==,!new), V(!new)>(keyHash: K -> Word, a: Word, pairs: seq<(K, V)>): (m: SMap<K, V>)
    requires KeysDistinct(pairs)
    requires |pairs| < Modulus
    ensures Valid(m)
    ensures |m.table| == Pow2(PickNumBits(|pairs|))
    ensures forall p :: p in pairs ==> Find(m, p.0) == Some(p.1)
    ensures forall k :: k !in KeysOf(pairs) ==> Find(m, k) == None
  {
    PickNumBitsFitsWord(|pairs|);
    InsertGroups(Empty(keyHash, a, PickNumBits(|pairs|)), pairs)
  }

  /**
   * The extension constructor. The new keys must be distinct and absent
   * from `m`. The result keeps every old key's value, maps each new key to
   * its new value, and shares `m`'s entries: they stay a prefix of its
   * store, untouched.
   */
  function Extend<K(==,!new), V(!new)>(m: SMap<K, V>, newElements: seq<(K, V)>): (m2: SMap<K, V>)
    requires Valid(m)
    requires KeysDistinct(newElements)
    requires forall p :: p in newElements ==> p.0 !in Keys(m)
    ensures Valid(m2)
    ensures Shares(m, m2)
    ensures forall k :: k in Keys(m) ==> Find(m2, k) == Find(m, k)
    ensures forall p :: p in newElements ==> Find(m2, p.0) == Some(p.1)
    ensures forall k :: k !in KeysOf(newElements) ==> Find(m2, k) == Find(m, k)
  {
    var m2 := InsertGroups(m, newElements);
    assert forall k :: k in Keys(m) ==> Find(m2, k) == Find(m, k) by {
      forall k | k in Keys(m)
        ensures Find(m2, k) == Find(m, k)
      {
      }
    }
    m2
  }

  /** A built map answers every lookup as the association list it was built from. */
  lemma BuildIsAssoc<K(!new), V(!new)>(keyHash: K -> Word, a: Word, pairs: seq<(K, V)>, k: K)
    requires KeysDistinct(pairs)
    requires |pairs| < Modulus
    ensures Find(Build(keyHash, a, pairs), k) == Assoc(pairs, k)
  {
    if k in KeysOf(pairs) {
      var p :| p in pairs && p.0 == k;
      AssocUnique(pairs, p);
    }
  }

  /**
   * An extended map answers a lookup as the old map for the old keys and
   * as the list of new elements for the others.
   */
  lemma ExtendIsAssoc<K(!new), V(!new)>(m: SMap<K, V>, newElements: seq<(K, V)>, k: K)
    requires Valid(m)
    requires KeysDistinct(newElements)
    requires forall p :: p in newElements ==> p.0 !in Keys(m)
    ensures Find(Extend(m, newElements), k) == if k in Keys(m) then Find(m, k) else Assoc(newElements, k)
  {
    if k in KeysOf(newElements) {
      var p :| p in newElements && p.0 == k;
      AssocUnique(newElements, p);
    }
  }
}

=== FILE: slot_encoding.dfy ===
/**
 * How a node's slot is stored in the word `edgesBegin`: 0 for a terminal
 * node, 1 for a node known only as an edge target, otherwise the address of
 * the first element of the node's run. Addresses are those of elements of
 * the edge store: the store's base address plus the offset times the size
 * of an element.
 */
module SlotEncoding {
  import opened Wrappers
  import opened Hashing
  import opened SemistaticGraph

  /** Where the edge store lives: the address of its element 0 and the size of one element. */
  datatype Layout = Layout(base: nat, elemSize: nat)

  /**
   * A layout for a store of `storeSize` elements: the store is not at
   * address 0, and the node id type is aligned to at least 2, so the base
   * address and the element size are even; every address up to one past
   * the end fits a word.
   */
  predicate LayoutOk(l: Layout, storeSize: nat)
  {
    && 0 < l.base
    && l.base % 2 == 0
    && 0 < l.elemSize
    && l.elemSize % 2 == 0
    && l.base + storeSize * l.elemSize < Modulus
  }

  /** The address of the element at `offset`. */
  function Address(l: Layout, offset: nat): nat
  {
    l.base + offset * l.elemSize
  }

  /** Every element address has 0 in its low-order bit, so it is neither marker. */
  lemma AddressEven(l: Layout, offset: nat)
    requires 0 < l.base && l.base % 2 == 0 && l.elemSize % 2 == 0
    ensures Address(l, offset) % 2 == 0
    ensures 2 <= Address(l, offset)
  {
    var half := l.elemSize / 2;
    assert offset * l.elemSize == 2 * (offset * half);
  }

  /** Addresses grow with offsets. */
  lemma AddressMonotonic(l: Layout, o1: nat, o2: nat)
    requires o1 <= o2
    ensures Address(l, o1) <= Address(l, o2)
  {
    var d := o2 - o1;
    assert o2 * l.elemSize == o1 * l.elemSize + d * l.elemSize;
  }

  /** The word a slot is stored as. */
  function Encode(l: Layout, storeSize: nat, s: Slot): (w: Word)
    requires LayoutOk(l, storeSize)
    requires SlotOk(s, storeSize)
    ensures w == 0 <==> s.Terminal?
    ensures w == 1 <==> s.Placeholder?
    ensures s.Edges? ==> w % 2 == 0
  {
    match s
    case Terminal => 0
    case Placeholder => 1
    case Edges(offset) =>
      AddressMonotonic(l, offset, storeSize);
      AddressEven(l, offset);
      Address(l, offset)
  }

  /**
   * Reads a slot back from a word: 0 and 1 are the two markers; any other
   * word must be the address of an element of the store.
   */
  function Decode(l: Layout, storeSize: nat, w: Word): (s: Option<Slot>)
    requires LayoutOk(l, storeSize)
    ensures s.Some? ==> SlotOk(s.value, storeSize)
  {
    if w == 0 then Some(Terminal)
    else if w == 1 then Some(Placeholder)
    else if w < l.base || (w - l.base) % l.elemSize != 0 then None
    else
      var offset := (w - l.base) / l.elemSize;
      if 1 <= offset <= storeSize then Some(Edges(offset)) else None
  }

  /** Below d, a multiple of d is 0. */
  lemma SmallMultiple(k: int, d: int)
    requires 1 <= d
    requires -d < k * d < d
    ensures k == 0
  {
  }

  /** (o * d) / d == o and (o * d) % d == 0 for positive d. */
  lemma MulDivCancel(o: nat, d: nat)
    requires 1 <= d
    ensures (o * d) / d == o
    ensures (o * d) % d == 0
  {
    var q := (o * d) / d;
    var r := (o * d) % d;
    assert o * d == q * d + r;
    assert (o - q) * d == o * d - q * d;
    SmallMultiple(o - q, d);
  }

  /** Decoding an encoded slot gives the slot back. */
  lemma DecodeEncode(l: Layout, storeSize: nat, s: Slot)
    requires LayoutOk(l, storeSize)
    requires SlotOk(s, storeSize)
    ensures Decode(l, storeSize, Encode(l, storeSize, s)) == Some(s)
  {
    if s.Edges? {
      MulDivCancel(s.offset, l.elemSize);
    }
  }

  /** Distinct slots are stored as distinct words. */
  lemma EncodeInjective(l: Layout, storeSize: nat, s1: Slot, s2: Slot)
    requires LayoutOk(l, storeSize)
    requires SlotOk(s1, storeSize) && SlotOk(s2, storeSize)
    ensures Encode(l, storeSize, s1) == Encode(l, storeSize, s2) ==> s1 == s2
  {
    DecodeEncode(l, storeSize, s1);
    DecodeEncode(l, storeSize, s2);
  }

  /** A word that decodes to a slot is that slot's encoding. */
  lemma EncodeDecode(l: Layout, storeSize: nat, w: Word)
    requires LayoutOk(l, storeSize)
    requires Decode(l, storeSize, w).Some?
    ensures Encode(l, storeSize, Decode(l, storeSize, w).value) == w
  {
    if w >= 2 {
      var offset := (w - l.base) / l.elemSize;
      assert w - l.base == offset * l.elemSize + (w - l.base) % l.elemSize;
    }
  }
}

=== FILE: wrappers.dfy ===
/** The absent-or-present result used where the source returns a null pointer or end(). */
module Wrappers {

  datatype Option<+T> = None | Some(value: T)
}
